=== FILE: README.md ===
# foop STM core, modelled in Dafny

This project models the sequential core of `foop`, a small software
transactional memory (STM) for Java.

A `StateManager` keeps three tables:
- the state table: each memory cell's name mapped to its current `State`;
- the ownership table (`stm`): names mapped to the `Transaction` that owns them;
- the memory: names mapped to the cell's `Variable` descriptor.

Transactions are built fluently, as
`newTransaction(description).op(o1).op(o2).done()`. Each operation is a
closure. It calls the transactional primitives `readT` and `writeT`, which
register the cell in the current transaction's read-set or write-set and read
or write the shared table at once. The current transaction is the one most
recently built by `newTransaction` (StateManager.java:620), not the one whose
`run` loop is executing. So when an older transaction runs, its reads and
writes land in the newest transaction's sets, and its own sets stay as they
are. `Engine.OperateLeavesOthers` states that `operate` on behalf of a
transaction that is not current leaves its record untouched.

A `Transaction` works in passes of its `run` loop. Each pass:
1. runs the operations (`operate`);
2. validates the read-set against the backup map (`commit`);
3. either releases ownership and completes, or rolls the write-set back to
   its backups (`rollback`) and tries again.

By design, an operation that reports `FAIL` rolls back and ends the
transaction for good. An exception thrown inside a pass is caught, and the
loop runs again. As the next section explains, in the code as written the
rollback itself throws whenever the transaction's own write-set is not
empty.

The model is purely functional. The whole mutable heap is one immutable
value, `Worlds.World`. It holds:
- the three tables;
- the transaction objects allocated so far, where a transaction's identity is
  its index;
- the ambient `Transactions` utility: the version counter and the current
  transaction.

Every Java method becomes a function from a world to a new world, or to a
`Result` when it can throw. The iteration order of a `HashSet` is left
open. Functions that traverse one take an explicit queue that enumerates it,
and every order is covered.

The files are:
- `base.dfy`: `Option`, `Result`, the exceptions, map lookup with nulls, and
  set enumerations.
- `java_int.dfy`: the 32-bit `int` and its wrap-around.
- `counter.dfy`: `foop.utils.Counter`.
- `variable.dfy`: `Variable`, including its `equals` and `hashCode`.
- `record.dfy`: `Record`, and the read-set and write-set bookkeeping of
  `Transaction`.
- `world.dfy`: the world, transactions and operations.
- `state_manager.dfy`: the registry, the transactional primitives and the
  builder.
- `engine.dfy`: `operate`, `commit`, `rollback`, `releaseOwnership`, and one
  pass of `run`.
- `bank.dfy`: the single-threaded transfer of the bank test driver, which
  ties everything together.

### Where the code and its own documentation part ways

The model follows the code in three places where it differs from what its
comments describe.

**No backups are ever taken.** The comment in `run`
(src/main/java/foop/core/Transaction.java:101-108) says that operating also
backs up each cell before changing it. Yet neither `readT` nor `writeT` sets
the record's `oldValues`, and nothing calls `setOldValues`. As a result:
- `commit` on a non-empty read-set dereferences a null map and throws.
  The exception is caught, the record stays incomplete, and the next pass
  re-applies every operation.
- An operation that reports `FAIL` when its transaction's own write-set is
  not empty does not end the transaction. `rollback` throws on its first backup lookup
  (Transaction.java:199), before the status is set (line 122). The exception
  is caught, the written cells keep their new states, and the next pass runs
  the operations again. `Engine.RunStepOutcome` states this: a failed
  `operate` with no backup map and a non-empty write-set ends the pass with
  `Raised(NullPointer)`, and the record stays incomplete.
- Only a transaction whose own write-set is empty can fail for good, and
  only one whose own read-set is empty can commit. A transaction that runs
  while a newer one is current keeps both sets empty, whatever its
  operations read and write. It therefore commits or fails at once, and a
  failure leaves its writes in place.

The first consequence already stops the bank driver's `testDrive1`
before its transfer. Between the set-up and the transfer T1, the driver
calls `logMsg` (src/test/java/foop/test/bank/BankDriver.java:140). That
builds a logging transaction whose one operation reads both accounts.
Its read-set is not empty, so every pass throws in `commit`, and the
driver waits on it forever. `BankScenario.LogNeverCompletes` and
`BankScenario.DriverBlocksInLog` state this.

`BankScenario.DriverNeverCompletes` states what T1 itself would do, had
the driver skipped the logging transactions. After `k` passes of T1's
loop, T1 is still incomplete, and 500 has moved `k` times. These driver
lemmas also give the set-up transaction a non-null description. As
written, `testDrive1` stops even earlier, inside the set-up itself (see
"## Left out").

**`commit` also validates names the transaction itself wrote.** A name read
before it is written stays in the read-set. Its live state is then the
transaction's own write. Suppose the backup map were a snapshot of the table
taken before the pass. Then a transaction that reads a cell and then changes
its state would clash with its own write and retry forever, even with no
other transaction running. `BankScenario.DriverWithSnapshotLivelocks` states
this.

**The result of `commit` can depend on the read-set's iteration order.**
When the live state is absent but a backup is present, the loop sets
`status` false without leaving it. A later member that matches sets it back
to true. `Engine.CommitDependsOnOrder` exhibits two orders of one read-set
that give different results.

## Model

| member | source | states |
|---|---|---|
| JavaInt.Wrap | src/main/java/foop/core/StateManager.java:546-549 | The Java `int` result is congruent to the exact value modulo 2^32, and equals it when it is in range. |
| Counters.New | src/main/java/foop/utils/Counter.java:31-34 | A new counter reports the value it was given. |
| Counters.GetValue | src/main/java/foop/utils/Counter.java:60-63 | `getValue` reports the whole state of the counter: a counter built from the value is the same counter. |
| Counters.Increment | src/main/java/foop/utils/Counter.java:40-43 | The value is one more, and `MAX_VALUE` wraps to `MIN_VALUE`. |
| Counters.Decrement | src/main/java/foop/utils/Counter.java:49-52 | The value is one less, and `MIN_VALUE` wraps to `MAX_VALUE`. |
| Counters.IncrementThenDecrement | src/main/java/foop/utils/Counter.java:40-52 | Incrementing then decrementing gives back the same counter, also at the wrap-around. |
| Counters.DecrementThenIncrement | src/main/java/foop/utils/Counter.java:40-52 | Decrementing then incrementing gives back the same counter. |
| Variables.Named | src/main/java/foop/core/Variable.java:72-76 | The name-only constructor keeps the name, and every property lookup is empty. |
| Variables.GetValue | src/main/java/foop/core/Variable.java:109-112 | `getValue` is present exactly when the key maps to a non-null value, and then it is that value. |
| Variables.PutAll | src/main/java/foop/core/Variable.java:88-96 | After putting the entries in order, a key that some entry supplies maps to its last entry's value. Every other key keeps its old mapping. |
| Variables.WithProperties | src/main/java/foop/core/Variable.java:88-96 | The constructor keeps the name. `getValue` of every key is the value of the last entry with that key, or empty when there is none. |
| Variables.LastEntryWins | src/main/java/foop/core/Variable.java:88-112 | An entry with no later entry of the same key is the one `getValue` reports. |
| Variables.GetValueEmpty | src/main/java/foop/core/Variable.java:109-112 | `getValue` is empty for a key no entry supplies, and for a key whose last entry was null. |
| Variables.Equals | src/main/java/foop/core/Variable.java:134-154 | `equals` holds exactly for another Variable with the same name, two null names counting as equal. Null and non-Variable arguments are never equal. |
| Variables.EqualsIsEquivalence | src/main/java/foop/core/Variable.java:134-154 | `equals` is reflexive, symmetric and transitive on Variables. |
| Variables.HashCode | src/main/java/foop/core/Variable.java:120-126 | The hash is 31 for a null name. Otherwise it is 31 plus the documented power sum of the name's characters, narrowed to `int`. |
| Variables.StringHashIsPolynomial | src/main/java/foop/core/Variable.java:120-126 | Folding `h = 31 * h + c` with `int` wrap-around at each step agrees, modulo 2^32, with the exact Horner polynomial. |
| Variables.PolynomialIsPowerSum | src/main/java/foop/core/Variable.java:120-126 | The Horner form of the string hash equals the power sum `s[0]*31^(n-1) + ... + s[n-1]`. |
| Variables.EqualsImpliesSameHash | src/main/java/foop/core/Variable.java:120-154 | Variables that are `equals` have the same `hashCode`, whatever their properties. |
| Records.NewRecord | src/main/java/foop/core/Record.java:88-93 | A new record is incomplete, with empty read and write sets and no version, description or backup map. |
| Records.SetStatus | src/main/java/foop/core/Record.java:57 | Only the completion flag changes, to the given value. |
| Records.SetVersion | src/main/java/foop/core/Record.java:58 | Only the version changes, to the given value. |
| Records.SetDescription | src/main/java/foop/core/Record.java:59 | Only the description changes, to the given value. |
| Records.SetOldValues | src/main/java/foop/core/Record.java:83 | Only the backup map changes, to the given map. |
| Records.AddWriteSetMembers | src/main/java/foop/core/Transaction.java:321-329 | The write-set grows by exactly the given names, and nothing else in the record changes. |
| Records.AddReadSetMembers | src/main/java/foop/core/Transaction.java:340-356 | The read-set grows by exactly those given names not already in the write-set, and nothing else changes. |
| Records.ReplayWriteSet | src/main/java/foop/core/Transaction.java:321-329 | Starting from a new record, a name is in the write-set exactly when some access wrote it. |
| Records.ReplayReadSet | src/main/java/foop/core/Transaction.java:340-356 | Starting from a new record, a name is in the read-set exactly when some read of it comes before every write of it. |
| Records.BothSetsIffReadBeforeWrite | src/main/java/foop/core/Transaction.java:321-356 | A name is in both sets exactly when it was read while still unwritten and was written later. |
| StateManager.Init | src/main/java/foop/core/StateManager.java:170-179 | A new manager has empty tables, and every read and owner lookup is empty. The version counter is 0 and there is no current transaction. |
| StateManager.Read | src/main/java/foop/core/StateManager.java:353-379 | `read` is present exactly when the table holds a non-null state for the name, and it is that state. |
| StateManager.Write | src/main/java/foop/core/StateManager.java:399-427 | `write` stores the state under the name, so a read gives it back. No other entry and no other table changes. |
| StateManager.GetOwner | src/main/java/foop/core/StateManager.java:205-229 | The owner is present exactly when the ownership table has the name. |
| StateManager.SetOwner | src/main/java/foop/core/StateManager.java:243-262 | The name is then owned by the given transaction, and every other name keeps its owner. |
| StateManager.ReleaseOwnership | src/main/java/foop/core/StateManager.java:274-293 | Only this name loses its owner. |
| StateManager.Make | src/main/java/foop/core/StateManager.java:311-337 | The new Variable has the name and last-wins properties. It replaces any Variable of that name in memory, and the rest of memory stays. |
| StateManager.GetStateTable | src/main/java/foop/core/StateManager.java:187-190 | The snapshot reads like the state table for every name. |
| StateManager.ReadT | src/main/java/foop/core/StateManager.java:444-462 | Outside a transaction it throws and nothing changes. Inside one it returns the live state and only adds the name to the current read-set, unless the name is in the write-set. |
| StateManager.WriteT | src/main/java/foop/core/StateManager.java:481-502 | Outside a transaction it throws. Inside one it stores the state immediately, changes no other cell, and only adds the name to the current write-set. |
| StateManager.NewTransaction | src/main/java/foop/core/StateManager.java:608-636 | Allocates a transaction with the description and no operations, and makes it current. Its fresh record carries the old version. The `int` counter goes up by one with wrap-around, and the tables stay. |
| StateManager.AppendOp | src/main/java/foop/core/StateManager.java:647-652 | Appends the operation to the current transaction, or throws a null pointer exception when there is none. Nothing else changes. |
| StateManager.Finish | src/main/java/foop/core/StateManager.java:662-675 | `done` returns the transaction being built, or null when there is none (a case the lock rules out in the source; see "## Left out"). In a well-formed world it is an allocated transaction. |
| StateManager.AppendOps | src/main/java/foop/core/StateManager.java:647-652 | Chained `op` calls append the operations in order to the current transaction only. |
| StateManager.BuildChain | src/main/java/foop/core/StateManager.java:608-675 | `newTransaction(d).op(..)...done()` returns the new transaction, holding exactly the given operations and a fresh record. Earlier transactions and the tables are untouched. |
| Engine.RunInstr | src/main/java/foop/core/StateManager.java:578-587 | A step of an operation body fails exactly at an abort or outside a transaction. The context is unchanged. |
| Engine.RunInstrEvolves | src/main/java/foop/core/StateManager.java:444-502 | A step only grows the current transaction's sets and only changes cells in its write-set. |
| Engine.RunOp | src/main/java/foop/core/StateManager.java:578-587 | An operation reports DONE exactly when its body has no abort and a transaction is current. Outside a transaction nothing changes. |
| Engine.RunOpEvolves | src/main/java/foop/core/StateManager.java:578-587 | An operation only grows the current transaction's sets and only changes cells in its write-set. |
| Engine.Operate | src/main/java/foop/core/Transaction.java:63-77 | Its own contract is weaker than its meaning (see "## Left out"): a true result means no operation contains an abort, outside a transaction nothing changes, and the context is kept. |
| Engine.OperateEvolves | src/main/java/foop/core/Transaction.java:63-77 | `operate` only grows the current transaction's sets and only changes cells it registered for writing. Ownership, memory and other transactions stay. |
| Engine.OperateLeavesOthers | src/main/java/foop/core/StateManager.java:444-502 | `readT` and `writeT` register cells in the most recently built transaction, so operating on behalf of any other transaction leaves that transaction's record unchanged. |
| Engine.OperateAppend | src/main/java/foop/core/Transaction.java:63-77 | Operating on `a + b` is operating on `a`, then on `b` only if `a` succeeded. |
| Engine.OperateTrueIffAllDone | src/main/java/foop/core/Transaction.java:63-77 | `operate` is true exactly when every operation reports DONE on the world its predecessors left. |
| Engine.OperateStopsAtFirstFail | src/main/java/foop/core/Transaction.java:63-77 | At the first FAIL, `operate` is false with that operation's world. Later operations never run. |
| Engine.CommitLoop | src/main/java/foop/core/Transaction.java:229-274 | The loop is true exactly when no member clashes and the last member visited matches its backup. |
| Engine.Commit | src/main/java/foop/core/Transaction.java:219-280 | An empty read-set commits. An unset backup map throws otherwise. A clashing member makes the result false, and all members matching makes it true, in any order. |
| Engine.CommitDependsOnOrder | src/main/java/foop/core/Transaction.java:235-274 | One read-set commits in one iteration order and fails in the other. |
| Engine.Restore | src/main/java/foop/core/Transaction.java:188-204 | Each queued name then holds its backup, null when there is none, and every other entry stays. |
| Engine.RestoreIsRestoredTable | src/main/java/foop/core/Transaction.java:188-204 | Restoring any enumeration of the write-set gives the reference restored table. |
| Engine.ReleaseLoop | src/main/java/foop/core/Transaction.java:286-308 | Only the queued names owned by this transaction leave the ownership table. |
| Engine.ReleaseOwnership | src/main/java/foop/core/Transaction.java:286-308 | In any order, the result is the reference table with this transaction's write-set ownership removed. |
| Engine.Rollback | src/main/java/foop/core/Transaction.java:188-209 | An unset backup map with a non-empty write-set throws and changes nothing. Otherwise the table becomes the reference restored table and ownership is released, in any order. |
| Engine.RollbackRestores | src/main/java/foop/core/Transaction.java:188-209 | After rollback, written cells read as their backups, other cells and other owners are unchanged, and no written cell is owned by the transaction. |
| Engine.RollbackOrderIndependent | src/main/java/foop/core/Transaction.java:188-209 | The result of rollback does not depend on the write-set's iteration order. |
| Engine.RollbackIdempotent | src/main/java/foop/core/Transaction.java:188-209 | Rolling back twice gives the same world as rolling back once. |
| Engine.RunStep | src/main/java/foop/core/Transaction.java:95-171 | A pass on a complete record is idle and changes nothing. Otherwise the record ends complete exactly when the pass failed or committed. The context and memory stay. |
| Engine.RunStepOutcome | src/main/java/foop/core/Transaction.java:95-171 | Gives the outcome of a pass from `operate`'s result, the backup map and the read-set. Failure ends it. A throwing `commit` or `rollback` is caught. A clash retries, and all members matching commits. |
| Engine.RunStepEffect | src/main/java/foop/core/Transaction.java:112-170 | A caught exception keeps the operated world. A commit keeps the table with no clashing read. A failure or retry restores the written cells. Every non-exception outcome releases ownership. |
| Engine.RunStepRestoresSnapshot | src/main/java/foop/core/Transaction.java:112-153 | With a snapshot as backups, a failed or retried pass leaves every cell reading as before the pass. |
| Engine.RunPasses | src/main/java/foop/core/Transaction.java:95 | Once the record is complete, further passes change nothing. |
| Engine.RunPassesKeep | src/main/java/foop/core/Transaction.java:95-171 | An invariant carried by every pass holds after any number of passes. |
| BankScenario.ModifyStep | src/test/java/foop/test/bank/BankDriver.java:49-55 | Reading an account and writing `f` of it stores `f` of the old state. The account joins the write-set, and the read-set too if it was not written before. |
| BankScenario.LoadWrittenStep | src/test/java/foop/test/bank/BankDriver.java:57-58 | Reading back an account that is already in the write-set changes nothing. |
| BankScenario.DepositStep | src/test/java/foop/test/bank/BankDriver.java:43-66 | `deposit` reports DONE and raises the balance by the amount, with an absent balance counting as 0. |
| BankScenario.WithdrawStep | src/test/java/foop/test/bank/BankDriver.java:79-102 | `withdraw` reports DONE and lowers the balance by the amount. |
| BankScenario.TransferOperates | src/test/java/foop/test/bank/BankDriver.java:136-149 | T1's deposit-then-withdraw operations succeed and leave the transferred world. |
| BankScenario.TransferredMoves | src/test/java/foop/test/bank/BankDriver.java:136-149 | In that world, 500 has moved from Account2 to Account1. Both accounts are in the write-set, Account1 is in the read-set, and no other record field changed. |
| BankScenario.TransferPassRaises | src/main/java/foop/core/Transaction.java:131-170 | Without backups, a pass of T1 applies the transfer, then `commit` throws and the exception is caught. |
| BankScenario.TransferNeverCompletes | src/main/java/foop/core/Transaction.java:95-171 | Without backups, T1 is incomplete after every number `k` of passes, and the balances have moved by `500 * k`. |
| BankScenario.TransferPassRetries | src/main/java/foop/core/Transaction.java:131-153 | With a snapshot as backups, T1 clashes with its own write and retries, and every cell reads as before. |
| BankScenario.TransferLivelocks | src/main/java/foop/core/Transaction.java:95-153 | With a snapshot as backups, T1 retries on every pass, and the balances never change. |
| BankScenario.StoreStep | src/main/java/foop/core/StateManager.java:481-502 | A transactional store writes the cell and adds it to the write-set only. |
| BankScenario.StorePair | src/test/java/foop/test/bank/BankDriver.java:108-129 | The set-up operation's two stores report DONE, applied in turn. |
| BankScenario.SetupWorld | src/test/java/foop/test/bank/BankDriver.java:108-129 | After `make` of both accounts and building the set-up transaction, that transaction is current and pending, with its one operation and no reads. |
| BankScenario.SetupCommits | src/test/java/foop/test/bank/BankDriver.java:108-129 | The set-up transaction commits on its first pass, leaving the accounts at 500 and 1500. |
| BankScenario.LogPassRaises | src/test/java/foop/test/bank/BankDriver.java:155-172 | With both balances present, a pass of a `logMsg` transaction reads both accounts into its read-set, then `commit` throws on the missing backup map. The exception is caught, no cell changes, and the record stays incomplete. |
| BankScenario.LogNeverCompletes | src/main/java/foop/core/Transaction.java:95-171 | With both balances present, a `logMsg` transaction is incomplete after every number `k` of passes, and the balances it reads stay unchanged. |
| BankScenario.LogWorld | src/test/java/foop/test/bank/BankDriver.java:136-140 | After set-up, the first `logMsg` transaction is built and current, with no backups, nothing written and balances of 500 and 1500. |
| BankScenario.DriverBlocksInLog | src/test/java/foop/test/bank/BankDriver.java:136-140 | The driver's first logging transaction is incomplete after every number `k` of passes, so T1 is never built, and the accounts stay at 500 and 1500. |
| BankScenario.TransferWorld | src/test/java/foop/test/bank/BankDriver.java:136-149 | After set-up, T1 is built and pending, with no backups and balances of 500 and 1500. The logging transaction in between is skipped (see "## Left out"). |
| BankScenario.DriverNeverCompletes | src/test/java/foop/test/bank/BankDriver.java:136-149 | With the logging transactions skipped (see "## Left out"), the driver's T1 is incomplete after `k` passes, with the accounts at `500 + 500k` and `1500 - 500k`. |
| BankScenario.DriverWithSnapshotLivelocks | src/test/java/foop/test/bank/BankDriver.java:136-149 | With the logging transactions skipped (see "## Left out") and a snapshot as backups, the driver's T1 never completes, and the balances stay at 500 and 1500. |

## Left out

- Threads, the readers-writer lock, `CountDownLatch`, `execute` and the backoff `sleep`: each call is modelled as one atomic step of a single thread, so interleavings between transactions are not modelled. Without the lock, `StateManager.Finish` can return null when no transaction is being built. In the source, `done` then unlocks a write lock it does not hold and throws `IllegalMonitorStateException` (StateManager.java:671), so that case exists only in the model.
- Logger calls are not modelled, because they have no effect on state. The transaction that `logMsg` builds is modelled, as `BankScenario.LogOps`.
- `InstanceFactory` is not part of this model. The `Transactions` utility is part of the world.
- Null descriptions and names: a transaction description is a string, and the bank set-up's null description is written as "setup". The `null` branches of `getOwner`, `setOwner`, `releaseOwnership` and `make` on a null name are not modelled. Neither is `make` with a null property entry: the `Variable` constructor then throws (Variable.java:95), and `make` leaves memory unchanged and returns null (StateManager.java:319-336). The model's entries cannot be null.
- The bank set-up as written never runs. `newTransaction(null)` throws in `Thread.setName` before the record and manager are attached (src/main/java/foop/core/StateManager.java:622-624). The handler releases the write lock (StateManager.java:629-632). `done` then unlocks it a second time (StateManager.java:671). The thread no longer holds the lock, so this throws `IllegalMonitorStateException` out of `done`, and `execute` is never reached (BankDriver.java:128). So `setupBankAccounts12` throws, `testDrive1` stops at BankDriver.java:138, and no transaction ever runs. The lemmas `SetupWorld`, `SetupCommits`, `LogWorld`, `DriverBlocksInLog`, `TransferWorld`, `DriverNeverCompletes` and `DriverWithSnapshotLivelocks` instead describe the driver with a non-null set-up description.
- BankScenario.LogPassRaises: it requires both balances to be present. On an absent balance, `get()` in the logging closure throws `NoSuchElementException` (BankDriver.java:163-168). The closure then reports FAIL, the empty write-set lets `rollback` succeed, and the pass ends the transaction. The instruction language's `Load` cannot fail, so that path is not modelled.
- BankScenario.LogNeverCompletes: it requires both balances to be present, for the reason given for `LogPassRaises`. With an absent balance, the source's logging transaction completes after one failed pass.
- BankScenario.TransferWorld: it builds T1 straight after the set-up, skipping the `logMsg` transaction at BankDriver.java:140. In the source that logging transaction never completes (`BankScenario.DriverBlocksInLog`), so the driver never builds T1. Had it done so, T1 would be transaction 2 with version 2 rather than transaction 1 with version 1.
- BankScenario.DriverNeverCompletes: it runs T1 from `TransferWorld`, so it skips the `logMsg` transactions at BankDriver.java:140 and 148. In the source, the first of them never completes, and T1 is never reached.
- BankScenario.DriverWithSnapshotLivelocks: it runs T1 from `TransferWorld`, so it skips the `logMsg` transactions at BankDriver.java:140 and 148. In the source, the first of them never completes, and T1 is never reached.
- StateManager.SetOwner takes a transaction, so `setOwner(n, null)` cannot be expressed. In the source it stores null, and `getOwner` then reports no owner (StateManager.java:243-262). Nothing in the source calls it with null.
- Records.SetOldValues takes a map, so resetting the backup map to null cannot be expressed. Nothing in the source calls `setOldValues` at all.
- Counter: a null `Integer` (the constructor given null) is not modelled.
- Characters are Dafny `char`s, so the UTF-16 code units of Java strings are not modelled exactly.
- Operations: arbitrary Java closures are replaced by a small instruction language (`Load`, `Store`, `Modify`, `Abort`). A primitive that throws inside an operation reports FAIL, as the bank driver's `catch` does.
- An exception escaping an operation's `go()` is not modelled, because an instruction cannot throw. In the source such an exception leaves `operate`, and the catch in `run` swallows it (Transaction.java:110, 167-170). There is no rollback, the effects of the operations before it stay, and the pass repeats.
- Backup capture: no code sets the backup map, so the model does not invent one. The snapshot results take the snapshot as a hypothesis.
- Bank balances are `int` rather than `float`. The second `readT` of `deposit` and `withdraw` (the presence check read twice) is folded into one read, because repeated reads are idempotent.
- `testDrive2` and other concurrent drivers are left out, because they rely on threads.
- Engine.Operate: its own contract states validity, the frame of the context, that a true result means no operation contains an abort, and that nothing changes outside a transaction. The rest of its meaning is stated by `OperateEvolves`, `OperateAppend`, `OperateTrueIffAllDone` and `OperateStopsAtFirstFail`.
- Engine.RunPasses: the unbounded `while` loop is cut off after `k` passes. Non-termination is stated as "incomplete after every `k`".

=== FILE: bank.dfy ===
/** The single-threaded transfer of the bank test driver, with integer
    balances in place of `float` ones. Two accounts are set up with 500 and
    1500; a logging transaction reads both; then transaction T1 deposits
    500 into Account1 and withdraws 500 from Account2. Each of `deposit`
    and `withdraw` reads the account (absent counts as 0), writes the new
    balance, and reads it back. */
module BankScenario {
  import opened Base
  import opened Records
  import opened Worlds
  import opened StateManager
  import opened Engine

  const Account1: Name := "Account1"
  const Account2: Name := "Account2"

  /** The balance of an account, 0 when it has none. */
  function Balance<P>(w: World<int, P>, account: Name): int {
    Read(w, account).GetOr(0)
  }

  /** Adds `amount` to a balance that may be absent (absent counts as 0). */
  function Credit(amount: int): Option<int> -> Option<int> {
    (b: Option<int>) => Some(b.GetOr(0) + amount)
  }

  lemma AccountsDistinct()
    ensures Account1 != Account2
  {
    assert Account1[7] != Account2[7];
  }

  /** Takes `amount` from a balance that may be absent (absent counts as 0). */
  function Debit(amount: int): Option<int> -> Option<int> {
    (b: Option<int>) => Some(b.GetOr(0) - amount)
  }

  function Deposit(account: Name, amount: int): Operation<int> {
    [Modify(account, Credit(amount)), Load(account)]
  }

  function Withdraw(account: Name, amount: int): Operation<int> {
    [Modify(account, Debit(amount)), Load(account)]
  }

  /** The operations of T1. */
  function TransferOps(): seq<Operation<int>> {
    [Deposit(Account1, 500), Withdraw(Account2, 500)]
  }

  /** The operations of the set-up transaction. */
  function SetupOps(): seq<Operation<int>> {
    [[Store(Account1, Some(500)), Store(Account2, Some(1500))]]
  }

  /** The world after a `Modify` of `n` to `v` in the current transaction:
      the cell holds `v`, and joins the write-set, and the read-set unless it
      was already in the write-set; nothing else changes. */
  ghost function AfterModify<S, P>(w: World<S, P>, n: Name, v: Option<S>): (w': World<S, P>)
    requires Valid(w) && w.ts.current.Some?
    ensures Valid(w') && w'.ts == w.ts && |w'.txns| == |w.txns|
    ensures var c := w.ts.current.value;
      var rec, rec' := w.txns[c].record, w'.txns[c].record;
      && w'.txns == w.txns[c := w.txns[c].(record := rec')]
      && rec' == rec.(readSet := rec'.readSet, writeSet := rec.writeSet + {n})
      && rec'.readSet == (if n in rec.writeSet then rec.readSet else rec.readSet + {n})
  {
    var c := w.ts.current.value;
    var rec := w.txns[c].record;
    var rec' := rec.(readSet := if n in rec.writeSet then rec.readSet else rec.readSet + {n},
                     writeSet := rec.writeSet + {n});
    w.(states := w.states[n := v], txns := w.txns[c := w.txns[c].(record := rec')])
  }

  /** After `AfterModify`, the modified cell reads `v` and every other
      cell reads as before. */
  lemma ReadAfterModify<S, P>(w: World<S, P>, n: Name, v: Option<S>, m: Name)
    requires Valid(w) && w.ts.current.Some?
    ensures Read(AfterModify(w, n, v), m) == if m == n then v else Read(w, m)
  {
  }

  /** A `Modify` step in a transaction leaves `AfterModify` of `f` applied
      to the cell's old state. */
  lemma ModifyStep<S, P>(w: World<S, P>, n: Name, f: Option<S> -> Option<S>)
    requires Valid(w) && w.ts.current.Some?
    ensures RunInstr(w, Modify(n, f)) == Some(AfterModify(w, n, f(Read(w, n))))
  {
    var c := w.ts.current.value;
    var rec := w.txns[c].record;
    var recR := AddReadSetMembers(rec, [n]);
    assert recR == rec.(readSet := if n in rec.writeSet then rec.readSet else rec.readSet + {n});
    var w1 := WithRecord(w, c, recR);
    assert ReadT(w, n) == Ok((Read(w, n), w1));
    var recW := AddWriteSetMembers(recR, [n]);
    assert recW == recR.(writeSet := rec.writeSet + {n});
    var w2 := WithRecord(w1, c, recW).(states := w.states[n := f(Read(w, n))]);
    assert WriteT(w1, n, f(Read(w, n))) == Ok(w2);
    assert RunInstr(w, Modify(n, f)) == Some(w2);
    assert w2.txns == w.txns[c := w.txns[c].(record := recW)];
  }

  /** A `Load` of a cell already in the write-set changes nothing. */
  lemma LoadWrittenStep<S, P>(w: World<S, P>, n: Name)
    requires Valid(w) && w.ts.current.Some?
    requires n in w.txns[w.ts.current.value].record.writeSet
    ensures RunInstr(w, Load(n)) == Some(w)
  {
    var c := w.ts.current.value;
    var rec := w.txns[c].record;
    assert AddReadSetMembers(rec, [n]) == rec;
    assert w.txns[c := w.txns[c].(record := rec)] == w.txns;
  }

  /** Reading a cell, writing `f` of it and reading it back: the operation
      reports DONE with the effect of the `Modify` step alone. */
  lemma RunModifyLoad<S, P>(w: World<S, P>, n: Name, f: Option<S> -> Option<S>)
    requires Valid(w) && w.ts.current.Some?
    ensures RunOp(w, [Modify(n, f), Load(n)]) == (Done, AfterModify(w, n, f(Read(w, n))))
  {
    ModifyStep(w, n, f);
    var w1 := AfterModify(w, n, f(Read(w, n)));
    LoadWrittenStep(w1, n);
    var tail: Operation<S> := [Load(n)];
    assert tail[1..] == [];
    assert RunOp(w1, tail) == (Done, w1);
    var op: Operation<S> := [Modify(n, f), Load(n)];
    assert op[1..] == tail;
  }

  /** T1 is the current transaction, incomplete, with its operations, and
      Account1 was read before any write to it. */
  ghost predicate Pending<P>(w: World<int, P>, self: TxnId) {
    && Valid(w) && self < |w.txns| && w.ts.current == Some(self)
    && var t := w.txns[self];
       && !t.record.status && t.ops == TransferOps()
       && (Account1 in t.record.writeSet ==> Account1 in t.record.readSet)
  }

  /** Two operations that report DONE from `w` to `w1` and from `w1` to
      `w2`: `operate` on the pair is true and leaves `w2`. */
  lemma OperatePair<S, P>(w: World<S, P>, o1: Operation<S>, o2: Operation<S>, w1: World<S, P>, w2: World<S, P>)
    requires Valid(w) && RunOp(w, o1) == (Done, w1) && RunOp(w1, o2) == (Done, w2)
    ensures Operate(w, [o1, o2]) == (true, w2)
  {
    OperateOne(w, o1, w1);
    OperateOne(w1, o2, w2);
    OperateAppend(w, [o1], [o2]);
    assert [o1] + [o2] == [o1, o2];
  }

  /** `deposit`: DONE, with the balance raised by `amount`. */
  lemma DepositStep<P>(w: World<int, P>, account: Name, amount: int)
    requires Valid(w) && w.ts.current.Some?
    ensures RunOp(w, Deposit(account, amount)) == (Done, AfterModify(w, account, Some(Balance(w, account) + amount)))
  {
    assert Credit(amount)(Read(w, account)) == Some(Balance(w, account) + amount);
    RunModifyLoad(w, account, Credit(amount));
  }

  /** `withdraw`: DONE, with the balance lowered by `amount`. */
  lemma WithdrawStep<P>(w: World<int, P>, account: Name, amount: int)
    requires Valid(w) && w.ts.current.Some?
    ensures RunOp(w, Withdraw(account, amount)) == (Done, AfterModify(w, account, Some(Balance(w, account) - amount)))
  {
    assert Debit(amount)(Read(w, account)) == Some(Balance(w, account) - amount);
    RunModifyLoad(w, account, Debit(amount));
  }

  /** A deposit of `x` into `a` then a withdrawal of `y` from `b`:
      `operate` is true and leaves the two balance updates in turn. */
  lemma DepositWithdraw<P>(w: World<int, P>, a: Name, x: int, b: Name, y: int, wa: World<int, P>, wb: World<int, P>)
    requires Valid(w) && w.ts.current.Some?
    requires wa == AfterModify(w, a, Some(Balance(w, a) + x))
    requires wb == AfterModify(wa, b, Some(Balance(wa, b) - y))
    ensures Operate(w, [Deposit(a, x), Withdraw(b, y)]) == (true, wb)
  {
    DepositStep(w, a, x);
    WithdrawStep(wa, b, y);
    OperatePair(w, Deposit(a, x), Withdraw(b, y), wa, wb);
  }

  /** The world after T1's operations, from a world where it is current. */
  ghost function Transferred<P>(w: World<int, P>): World<int, P>
    requires Valid(w) && w.ts.current.Some?
  {
    var wa := AfterModify(w, Account1, Some(Balance(w, Account1) + 500));
    AfterModify(wa, Account2, Some(Balance(wa, Account2) - 500))
  }

  /** `operate` on T1's operations is true and leaves `Transferred`. */
  lemma TransferOperates<P>(w: World<int, P>)
    requires Valid(w) && w.ts.current.Some?
    ensures Operate(w, TransferOps()) == (true, Transferred(w))
  {
    var wa := AfterModify(w, Account1, Some(Balance(w, Account1) + 500));
    DepositWithdraw(w, Account1, 500, Account2, 500, wa, Transferred(w));
  }

  /** In `Transferred`, 500 has moved from Account2 to Account1 (absent
      balances count as 0), both accounts have joined the write-set,
      Account1 is in the read-set, and no other record field changed. */
  lemma TransferredMoves<P>(w: World<int, P>, self: TxnId)
    requires Pending(w, self)
    ensures Read(Transferred(w), Account1) == Some(Balance(w, Account1) + 500)
    ensures Read(Transferred(w), Account2) == Some(Balance(w, Account2) - 500)
    ensures Transferred(w).txns == w.txns[self := w.txns[self].(record := Transferred(w).txns[self].record)]
    ensures Transferred(w).txns[self].record == w.txns[self].record.(readSet := Transferred(w).txns[self].record.readSet,
                                                                       writeSet := w.txns[self].record.writeSet + {Account1, Account2})
    ensures w.txns[self].record.readSet <= Transferred(w).txns[self].record.readSet
    ensures Account1 in Transferred(w).txns[self].record.readSet
  {
    AccountsDistinct();
    var wa := AfterModify(w, Account1, Some(Balance(w, Account1) + 500));
    var vb := Some(Balance(wa, Account2) - 500);
    ReadAfterModify(w, Account1, Some(Balance(w, Account1) + 500), Account2);
    ReadAfterModify(wa, Account2, vb, Account1);
    ReadAfterModify(wa, Account2, vb, Account2);
    ReadAfterModify(w, Account1, Some(Balance(w, Account1) + 500), Account1);
    var rec, reca, recb := w.txns[self].record, wa.txns[self].record, Transferred(w).txns[self].record;
    assert reca == rec.(readSet := reca.readSet, writeSet := rec.writeSet + {Account1});
    assert recb == reca.(readSet := recb.readSet, writeSet := reca.writeSet + {Account2});
    assert wa.txns == w.txns[self := w.txns[self].(record := reca)];
  }

  /** T1 stays pending through its operations, and keeps its backup map. */
  lemma TransferredPending<P>(w: World<int, P>, self: TxnId)
    requires Pending(w, self)
    ensures Pending(Transferred(w), self)
    ensures Transferred(w).txns[self].record.oldValues == w.txns[self].record.oldValues
  {
    TransferredMoves(w, self);
  }

  // ---------------------------------------------------------------------
  // T1 without backups

  /** T1 pending with no backup map, the accounts holding `a` and `b`. */
  ghost predicate Raising<P>(w: World<int, P>, self: TxnId, a: int, b: int) {
    && Pending(w, self) && w.txns[self].record.oldValues.None?
    && Balance(w, Account1) == a && Balance(w, Account2) == b
  }

  /** With no backup map, a pass of T1 applies the transfer, then `commit`
      throws on the non-empty read-set: the exception is caught and the
      transfer stays applied. */
  lemma TransferPassRaises<P>(w: World<int, P>, self: TxnId, enum: set<Name> -> seq<Name>)
    requires Pending(w, self) && IsEnumerator(enum)
    requires w.txns[self].record.oldValues.None?
    ensures RunStep(w, self, enum) == Step(Raised(NullPointer), Transferred(w))
  {
    TransferOperates(w);
    TransferredMoves(w, self);
    RunStepOutcome(w, self, enum);
    RunStepEffect(w, self, enum);
  }

  /** So each such pass moves another 500, and T1 stays pending. */
  lemma RaisingStep<P>(w: World<int, P>, self: TxnId, enum: set<Name> -> seq<Name>, a: int, b: int)
    requires Raising(w, self, a, b) && IsEnumerator(enum)
    ensures Raising(RunStep(w, self, enum).world, self, a + 500, b - 500)
  {
    TransferPassRaises(w, self, enum);
    TransferredMoves(w, self);
    TransferredPending(w, self);
  }

  /** `Raising` after `j` passes, from balances `a` and `b`. */
  ghost function RaisingAfter<P>(self: TxnId, a: int, b: int): (World<int, P>, nat) -> bool {
    (v: World<int, P>, j: nat) => Raising(v, self, a + 500 * j, b - 500 * j)
  }

  lemma RaisingAfterStep<P>(v: World<int, P>, self: TxnId, enum: set<Name> -> seq<Name>, a: int, b: int, j: nat)
    requires RaisingAfter(self, a, b)(v, j) && IsEnumerator(enum)
    ensures RaisingAfter(self, a, b)(RunStep(v, self, enum).world, j + 1)
  {
    RaisingAfterUnpack(v, self, a, b, j);
    RaisingStep(v, self, enum, a + 500 * j, b - 500 * j);
    RaisingAfterPack(RunStep(v, self, enum).world, self, a, b, j + 1);
  }

  /** Puts `Raising` into the invariant after `j` passes. */
  lemma RaisingAfterPack<P>(v: World<int, P>, self: TxnId, a: int, b: int, j: nat)
    requires j > 0 && Raising(v, self, a + 500 * (j - 1) + 500, b - 500 * (j - 1) - 500)
    ensures RaisingAfter(self, a, b)(v, j)
  {
  }

  lemma RaisingAfterKept<P>(self: TxnId, enum: set<Name> -> seq<Name>, a: int, b: int)
    requires IsEnumerator(enum)
    ensures forall v: World<int, P>, j: nat | RaisingAfter(self, a, b)(v, j) && Valid(v) && self < |v.txns| ::
              RaisingAfter(self, a, b)(RunStep(v, self, enum).world, j + 1)
  {
    forall v: World<int, P>, j: nat | RaisingAfter(self, a, b)(v, j) && Valid(v) && self < |v.txns|
      ensures RaisingAfter(self, a, b)(RunStep(v, self, enum).world, j + 1)
    {
      RaisingAfterStep(v, self, enum, a, b, j);
    }
  }

  /** Reads `Raising` back out of the invariant after `j` passes; stated
      on its own so that the lambda is applied in a small context. */
  lemma RaisingAfterUnpack<P>(v: World<int, P>, self: TxnId, a: int, b: int, j: nat)
    requires RaisingAfter(self, a, b)(v, j)
    ensures Raising(v, self, a + 500 * j, b - 500 * j)
  {
  }

  /** Without backups the `run` loop of T1 never completes: after `k` passes
      the record is still incomplete and the transfer has been applied `k`
      times, so the total of the two balances is kept. */
  lemma TransferNeverCompletes<P>(w: World<int, P>, self: TxnId, enum: set<Name> -> seq<Name>, k: nat)
    requires Pending(w, self) && IsEnumerator(enum)
    requires w.txns[self].record.oldValues.None?
    ensures Raising(RunPasses(w, self, enum, k), self, Balance(w, Account1) + 500 * k, Balance(w, Account2) - 500 * k)
  {
    var a, b := Balance(w, Account1), Balance(w, Account2);
    RaisingAfterKept<P>(self, enum, a, b);
    assert RaisingAfter(self, a, b)(w, 0);
    RunPassesKeep(w, self, enum, k, RaisingAfter(self, a, b));
    RaisingAfterUnpack(RunPasses(w, self, enum, k), self, a, b, k);
  }

  // ---------------------------------------------------------------------
  // T1 with a snapshot as its backups

  /** T1 pending, its backup map `snap` reading like the state table. */
  ghost predicate Retrying<P>(w: World<int, P>, self: TxnId, snap: map<Name, Option<int>>) {
    && Pending(w, self) && w.txns[self].record.oldValues == Some(snap)
    && forall n :: Get(snap, n) == Read(w, n)
  }

  /** With a backup map that reads like the state table before the pass, a
      pass of T1 finds its own write to Account1 clashing with the backup:
      the pass must retry, and every cell reads as before. */
  lemma TransferPassRetries<P>(w: World<int, P>, self: TxnId, enum: set<Name> -> seq<Name>, snap: map<Name, Option<int>>)
    requires Retrying(w, self, snap) && IsEnumerator(enum)
    ensures RunStep(w, self, enum).outcome == Retry
    ensures Retrying(RunStep(w, self, enum).world, self, snap)
  {
    TransferOperates(w);
    TransferredMoves(w, self);
    TransferredPending(w, self);
    var rec := Transferred(w).txns[self].record;
    assert Clashes(Transferred(w).states, Backups(rec), Account1);
    RunStepRestoresSnapshot(w, self, enum);
    RunStepOutcome(w, self, enum);
    RunStepEffect(w, self, enum);
  }

  ghost function RetryingAfter<P>(self: TxnId, snap: map<Name, Option<int>>): (World<int, P>, nat) -> bool {
    (v: World<int, P>, j: nat) => Retrying(v, self, snap)
  }

  lemma RetryingAfterKept<P>(self: TxnId, enum: set<Name> -> seq<Name>, snap: map<Name, Option<int>>)
    requires IsEnumerator(enum)
    ensures forall v: World<int, P>, j: nat | RetryingAfter(self, snap)(v, j) && Valid(v) && self < |v.txns| ::
              RetryingAfter(self, snap)(RunStep(v, self, enum).world, j + 1)
  {
    forall v: World<int, P>, j: nat | RetryingAfter(self, snap)(v, j) && Valid(v) && self < |v.txns|
      ensures RetryingAfter(self, snap)(RunStep(v, self, enum).world, j + 1)
    {
      TransferPassRetries(v, self, enum, snap);
    }
  }

  /** Even alone, T1 with a snapshot backup map can never commit: every pass
      of the `run` loop retries and every cell keeps its state. */
  lemma TransferLivelocks<P>(w: World<int, P>, self: TxnId, enum: set<Name> -> seq<Name>, snap: map<Name, Option<int>>, k: nat)
    requires Retrying(w, self, snap) && IsEnumerator(enum)
    ensures Retrying(RunPasses(w, self, enum, k), self, snap)
  {
    RetryingAfterKept<P>(self, enum, snap);
    assert RetryingAfter(self, snap)(w, 0);
    RunPassesKeep(w, self, enum, k, RetryingAfter(self, snap));
  }

  // ---------------------------------------------------------------------
  // The logging transaction

  /** The one operation of a `logMsg` transaction: `readT` of both
      accounts, to format their balances into the message. */
  function LogOps(): seq<Operation<int>> {
    [[Load(Account1), Load(Account2)]]
  }

  /** A `logMsg` transaction current and incomplete, with no backup map and
      nothing written, both accounts holding a balance, `a` and `b`. (On
      an absent balance `get()` throws, the closure reports FAIL, and the
      pass ends the transaction.) */
  ghost predicate Logging<P>(w: World<int, P>, self: TxnId, a: int, b: int) {
    && Valid(w) && self < |w.txns| && w.ts.current == Some(self)
    && var rec := w.txns[self].record;
       && !rec.status && w.txns[self].ops == LogOps()
       && rec.oldValues.None? && rec.writeSet == {}
       && Read(w, Account1) == Some(a) && Read(w, Account2) == Some(b)
  }

  /** A pass of a `logMsg` transaction: its reads succeed and put both
      accounts in the read-set, so `commit` throws on the missing backup
      map. The exception is caught, no cell changes, and the record stays
      incomplete. */
  lemma LogPassRaises<P>(w: World<int, P>, self: TxnId, enum: set<Name> -> seq<Name>, a: int, b: int)
    requires Logging(w, self, a, b) && IsEnumerator(enum)
    ensures RunStep(w, self, enum).outcome == Raised(NullPointer)
    ensures RunStep(w, self, enum).world.states == w.states
    ensures Logging(RunStep(w, self, enum).world, self, a, b)
  {
    var w1 := ReadT(w, Account1).value.1;
    var w2 := ReadT(w1, Account2).value.1;
    var op := LogOps()[0];
    var tail: Operation<int> := [Load(Account2)];
    assert RunInstr(w1, Load(Account2)) == Some(w2);
    assert tail[1..] == [];
    assert RunOp(w1, tail) == (Done, w2);
    assert RunInstr(w, Load(Account1)) == Some(w1);
    assert op[1..] == tail;
    assert RunOp(w, op) == (Done, w2);
    OperateOne(w, op, w2);
    assert Account2 in w2.txns[self].record.readSet;
    RunStepOutcome(w, self, enum);
    RunStepEffect(w, self, enum);
  }

  ghost function LoggingAfter<P>(self: TxnId, a: int, b: int): (World<int, P>, nat) -> bool {
    (v: World<int, P>, j: nat) => Logging(v, self, a, b)
  }

  lemma LoggingAfterKept<P>(self: TxnId, enum: set<Name> -> seq<Name>, a: int, b: int)
    requires IsEnumerator(enum)
    ensures forall v: World<int, P>, j: nat | LoggingAfter(self, a, b)(v, j) && Valid(v) && self < |v.txns| ::
              LoggingAfter(self, a, b)(RunStep(v, self, enum).world, j + 1)
  {
    forall v: World<int, P>, j: nat | LoggingAfter(self, a, b)(v, j) && Valid(v) && self < |v.txns|
      ensures LoggingAfter(self, a, b)(RunStep(v, self, enum).world, j + 1)
    {
      LogPassRaises(v, self, enum, a, b);
    }
  }

  /** A `logMsg` transaction never completes: every pass of its `run` loop
      throws in `commit`, so `execute` never returns, and the balances it
      was to report stay as they were. */
  lemma LogNeverCompletes<P>(w: World<int, P>, self: TxnId, enum: set<Name> -> seq<Name>, a: int, b: int, k: nat)
    requires Logging(w, self, a, b) && IsEnumerator(enum)
    ensures Logging(RunPasses(w, self, enum, k), self, a, b)
  {
    LoggingAfterKept<P>(self, enum, a, b);
    assert LoggingAfter(self, a, b)(w, 0);
    RunPassesKeep(w, self, enum, k, LoggingAfter(self, a, b));
  }

  // ---------------------------------------------------------------------
  // The driver

  /** The world after a `Store` of `v` into `n` in the current transaction:
      the cell holds `v` and joins the write-set; the read-set is untouched. */
  ghost function AfterStore<S, P>(w: World<S, P>, n: Name, v: Option<S>): (w': World<S, P>)
    requires Valid(w) && w.ts.current.Some?
    ensures Valid(w') && w'.ts == w.ts && |w'.txns| == |w.txns|
  {
    var c := w.ts.current.value;
    var rec := w.txns[c].record;
    w.(states := w.states[n := v], txns := w.txns[c := w.txns[c].(record := rec.(writeSet := rec.writeSet + {n}))])
  }

  /** A `Store` step in a transaction leaves `AfterStore`. */
  lemma StoreStep<S, P>(w: World<S, P>, n: Name, v: Option<S>)
    requires Valid(w) && w.ts.current.Some?
    ensures RunInstr(w, Store(n, v)) == Some(AfterStore(w, n, v))
  {
    var c := w.ts.current.value;
    var rec := w.txns[c].record;
    assert AddWriteSetMembers(rec, [n]) == rec.(writeSet := rec.writeSet + {n});
  }

  /** An operation that starts with a `Store` continues from `AfterStore`. */
  lemma StoreThen<S, P>(w: World<S, P>, n: Name, v: Option<S>, op: Operation<S>, w1: World<S, P>)
    requires Valid(w) && w.ts.current.Some? && w1 == AfterStore(w, n, v)
    requires |op| > 0 && op[0] == Store(n, v)
    ensures RunOp(w, op) == RunOp(w1, op[1..])
  {
    StoreStep(w, n, v);
  }

  /** An operation of two stores reports DONE with both applied in turn. */
  lemma StorePair<S, P>(w: World<S, P>, a: Name, x: Option<S>, b: Name, y: Option<S>, wa: World<S, P>, wb: World<S, P>)
    requires Valid(w) && w.ts.current.Some?
    requires wa == AfterStore(w, a, x) && wb == AfterStore(wa, b, y)
    ensures RunOp(w, [Store(a, x), Store(b, y)]) == (Done, wb)
  {
    var op := [Store(a, x), Store(b, y)];
    StoreThen(w, a, x, op, wa);
    var tail := op[1..];
    assert tail == [Store(b, y)];
    StoreThen(wa, b, y, tail, wb);
    assert tail[1..] == [];
  }

  /** A single operation that reports DONE: `operate` is true with its
      world. */
  lemma OperateOne<S, P>(w: World<S, P>, o: Operation<S>, w1: World<S, P>)
    requires Valid(w) && RunOp(w, o) == (Done, w1)
    ensures Operate(w, [o]) == (true, w1)
  {
    var ops := [o];
    assert ops[1..] == [];
  }

  /** `make("Account1")`, `make("Account2")`, then the set-up transaction
      with its one operation, ready to run. */
  function SetupWorld(): (w: World<int, int>)
    ensures Valid(w) && |w.txns| == 1 && w.ts.current == Some(0)
    ensures w.txns[0].ops == SetupOps()
    ensures !w.txns[0].record.status && w.txns[0].record.readSet == {} && w.txns[0].record.oldValues.None?
    ensures Account1 in w.memory && Account2 in w.memory
  {
    var w1 := Make(Init<int, int>(), Account1, []).0;
    var w2 := Make(w1, Account2, []).0;
    StateManager.BuildChain(w2, "setup", SetupOps());
    AppendOps(NewTransaction(w2, "setup"), SetupOps()).value
  }

  /** The world after the set-up transaction's operation. */
  ghost function SetUp(): World<int, int> {
    var w := SetupWorld();
    AfterStore(AfterStore(w, Account1, Some(500)), Account2, Some(1500))
  }

  /** The set-up transaction has an empty read-set, so its first pass
      commits: Account1 holds 500 and Account2 holds 1500. */
  lemma SetupCommits(enum: set<Name> -> seq<Name>)
    requires IsEnumerator(enum)
    ensures RunStep(SetupWorld(), 0, enum).outcome == Committed
    ensures RunStep(SetupWorld(), 0, enum).world.txns[0].record.status
    ensures Read(RunStep(SetupWorld(), 0, enum).world, Account1) == Some(500)
    ensures Read(RunStep(SetupWorld(), 0, enum).world, Account2) == Some(1500)
  {
    AccountsDistinct();
    var w := SetupWorld();
    var wa := AfterStore(w, Account1, Some(500));
    StorePair(w, Account1, Some(500), Account2, Some(1500), wa, SetUp());
    OperateOne(w, SetupOps()[0], SetUp());
    assert SetUp().txns[0].record.readSet == {};
    RunStepOutcome(w, 0, enum);
    RunStepEffect(w, 0, enum);
  }

  /** `newTransaction("T1").op(deposit).op(withdraw).done()` after the set-up
      has run, skipping the logging transaction the driver builds in
      between: T1 is pending with no backups, the accounts at 500 and 1500. */
  function TransferWorld(enum: set<Name> -> seq<Name>): (w: World<int, int>)
    requires IsEnumerator(enum)
    ensures Pending(w, 1) && w.txns[1].record.oldValues.None?
    ensures Balance(w, Account1) == 500 && Balance(w, Account2) == 1500
  {
    var w0 := RunStep(SetupWorld(), 0, enum).world;
    SetupCommits(enum);
    StateManager.BuildChain(w0, "T1", TransferOps());
    AppendOps(NewTransaction(w0, "T1"), TransferOps()).value
  }

  /** The driver's T1 never completes: every pass moves the money again and
      throws in `commit`, so after `k` passes Account1 holds 500 + 500k and
      Account2 holds 1500 - 500k. */
  lemma DriverNeverCompletes(enum: set<Name> -> seq<Name>, k: nat)
    requires IsEnumerator(enum)
    ensures !RunPasses(TransferWorld(enum), 1, enum, k).txns[1].record.status
    ensures Balance(RunPasses(TransferWorld(enum), 1, enum, k), Account1) == 500 + 500 * k
    ensures Balance(RunPasses(TransferWorld(enum), 1, enum, k), Account2) == 1500 - 500 * k
  {
    TransferNeverCompletes(TransferWorld(enum), 1, enum, k);
  }

  /** The driver's T1, given a `getStateTable` snapshot as its backup map. */
  ghost function SnapshotWorld(enum: set<Name> -> seq<Name>): World<int, int>
    requires IsEnumerator(enum)
  {
    var w := TransferWorld(enum);
    WithRecord(w, 1, SetOldValues(w.txns[1].record, GetStateTable(w)))
  }

  /** Had T1 been given a snapshot of the state table as its backup map, it
      would retry forever instead, the balances staying at 500 and 1500. */
  lemma DriverWithSnapshotLivelocks(enum: set<Name> -> seq<Name>, k: nat)
    requires IsEnumerator(enum)
    ensures !RunPasses(SnapshotWorld(enum), 1, enum, k).txns[1].record.status
    ensures Balance(RunPasses(SnapshotWorld(enum), 1, enum, k), Account1) == 500
    ensures Balance(RunPasses(SnapshotWorld(enum), 1, enum, k), Account2) == 1500
  {
    var w := TransferWorld(enum);
    var snap := GetStateTable(w);
    assert Retrying(SnapshotWorld(enum), 1, snap);
    TransferLivelocks(SnapshotWorld(enum), 1, enum, snap, k);
    var w' := RunPasses(SnapshotWorld(enum), 1, enum, k);
    assert Read(w', Account1) == Read(w, Account1);
    assert Read(w', Account2) == Read(w, Account2);
  }

  /** `newTransaction("LoggerTransaction").op(..).done()` builds a pending
      logging transaction over the balances of the world it starts from. */
  lemma LogBuilt<P>(w0: World<int, P>)
    requires Read(w0, Account1).Some? && Read(w0, Account2).Some?
    ensures Logging(AppendOps(NewTransaction(w0, "LoggerTransaction"), LogOps()).value, |w0.txns|,
                    Balance(w0, Account1), Balance(w0, Account2))
  {
    StateManager.BuildChain(w0, "LoggerTransaction", LogOps());
  }

  /** `logMsg("HARMLESS:: Initially")` after the set-up has run: the
      logging transaction is built and current, with no backups and the
      accounts at 500 and 1500. */
  function LogWorld(enum: set<Name> -> seq<Name>): (w: World<int, int>)
    requires IsEnumerator(enum)
    ensures Logging(w, 1, 500, 1500)
  {
    var w0 := RunStep(SetupWorld(), 0, enum).world;
    SetupCommits(enum);
    LogBuilt(w0);
    AppendOps(NewTransaction(w0, "LoggerTransaction"), LogOps()).value
  }

  /** The driver blocks in its first `logMsg`: after any number `k` of
      passes the logging transaction is incomplete, so `testDrive1` never
      builds T1, and the accounts still hold 500 and 1500. */
  lemma DriverBlocksInLog(enum: set<Name> -> seq<Name>, k: nat)
    requires IsEnumerator(enum)
    ensures !RunPasses(LogWorld(enum), 1, enum, k).txns[1].record.status
    ensures Balance(RunPasses(LogWorld(enum), 1, enum, k), Account1) == 500
    ensures Balance(RunPasses(LogWorld(enum), 1, enum, k), Account2) == 1500
  {
    LogNeverCompletes(LogWorld(enum), 1, enum, 500, 1500, k);
  }
}

=== FILE: base.dfy ===
/** Shared vocabulary of the model: Java's nullable references and
    `Optional`, the exceptions the engine can raise, the lookup every
    hash table of the engine uses, and iteration orders of hash sets. */
module Base {

  /** Names of memory cells (the key of every table), also property keys. */
  type Name = string

  /** `java.util.Optional`, and a nullable reference: `None` stands for null. */
  datatype Option<+T> = None | Some(value: T) {

    /** `Optional.orElse` */
    function GetOr(default: T): T {
      match this
      case Some(v) => v
      case None => default
    }
  }

  /** The exceptions the modelled code throws. */
  datatype Error =
    | NoTransactionContext  // `readT`/`writeT` called with no current transaction
    | NullPointer           // a field that was never set is dereferenced

  datatype Result<+T> = Ok(value: T) | Err(error: Error)

  /** `HashMap.get` on a map that may hold null values: a missing key and a
      key mapped to null both give None. */
  function Get<K, V>(m: map<K, Option<V>>, k: K): (r: Option<V>)
    ensures r.Some? <==> k in m && m[k].Some?
    ensures r.Some? ==> r == m[k]
  {
    if k in m then m[k] else None
  }

  /** `order` lists every element of `s` exactly once: one possible
      iteration order of a `HashSet` holding `s`. */
  ghost predicate IsEnumeration(order: seq<Name>, s: set<Name>) {
    && (forall i, j | 0 <= i < j < |order| :: order[i] != order[j])
    && (forall x :: x in order <==> x in s)
  }

  /** `enum` gives every set of names some iteration order. */
  ghost predicate IsEnumerator(enum: set<Name> -> seq<Name>) {
    forall s :: IsEnumeration(enum(s), s)
  }
}

=== FILE: counter.dfy ===
/** `foop.utils.Counter`: a mutable boxed Java `Integer` that counts up and
    down. The box is modelled as an immutable value; each mutator returns the
    counter after the call. */
module Counters {
  import opened JavaInt

  datatype Counter = Counter(value: Int32)

  /** The constructor stores its argument. */
  function New(value: Int32): (c: Counter)
    ensures GetValue(c) == value
  {
    Counter(value)
  }

  /** Reads the value; the counter is left as it was, and the value is all
      of its state. */
  function GetValue(c: Counter): (v: Int32)
    ensures Counter(v) == c
  {
    c.value
  }

  /** `value++` on a Java `Integer`: one more, wrapping from the largest
      `int` to the smallest. */
  function Increment(c: Counter): (c': Counter)
    ensures c'.value == if c.value == MAX_VALUE then MIN_VALUE else c.value + 1
  {
    Counter(Wrap(c.value + 1))
  }

  /** `value--` on a Java `Integer`: one less, wrapping from the smallest
      `int` to the largest. */
  function Decrement(c: Counter): (c': Counter)
    ensures c'.value == if c.value == MIN_VALUE then MAX_VALUE else c.value - 1
  {
    Counter(Wrap(c.value - 1))
  }

  /** Incrementing then decrementing restores the counter, also across the
      wrap-around. */
  lemma IncrementThenDecrement(c: Counter)
    ensures GetValue(Decrement(Increment(c))) == GetValue(c)
    ensures Decrement(Increment(c)) == c
  {
  }

  /** Decrementing then incrementing restores the counter. */
  lemma DecrementThenIncrement(c: Counter)
    ensures Increment(Decrement(c)) == c
  {
  }
}

=== FILE: engine.dfy ===
/** `foop.core.Transaction`: running the operation list, commit validation
    over the read-set, rollback from the backup map, release of ownership,
    and one iteration of the `run` loop. The traversal of a `HashSet` is an
    explicit queue that enumerates the set (`IsEnumeration`). */
module Engine {
  import opened Base
  import opened Records
  import opened Worlds
  import opened StateManager

  // ---------------------------------------------------------------------
  // What operations may do to the world

  /** The transaction's identity and operations are kept; its record may only
      grow its read-set and write-set. */
  ghost predicate Grows<S>(t: Txn<S>, t': Txn<S>) {
    && t' == t.(record := t'.record)
    && t'.record == t.record.(readSet := t'.record.readSet, writeSet := t'.record.writeSet)
    && t.record.readSet <= t'.record.readSet
    && t.record.writeSet <= t'.record.writeSet
  }

  /** Names the current transaction has registered for writing. */
  ghost function CurrentWriteSet<S, P>(w: World<S, P>): set<Name> {
    if w.ts.current.Some? && w.ts.current.value < |w.txns|
    then w.txns[w.ts.current.value].record.writeSet
    else {}
  }

  /** The two tables agree on every name outside `touched`. */
  ghost predicate SameOutside<S>(a: map<Name, Option<S>>, b: map<Name, Option<S>>, touched: set<Name>) {
    forall n | n !in touched :: (n in a <==> n in b) && (n in a ==> a[n] == b[n])
  }

  /** What a run of operations can do: only the current transaction's sets
      grow, and only cells in its write-set change state. The ownership and
      memory tables, the ambient context and every other transaction stay. */
  ghost predicate Evolves<S, P>(w: World<S, P>, w': World<S, P>) {
    && w' == w.(states := w'.states, txns := w'.txns)
    && |w'.txns| == |w.txns|
    && (forall i | 0 <= i < |w.txns| :: Grows(w.txns[i], w'.txns[i]))
    && (forall i | 0 <= i < |w.txns| && w.ts.current != Some(i) :: w'.txns[i] == w.txns[i])
    && SameOutside(w.states, w'.states, CurrentWriteSet(w'))
  }

  lemma EvolvesTransitive<S, P>(a: World<S, P>, b: World<S, P>, c: World<S, P>)
    requires Evolves(a, b) && Evolves(b, c)
    ensures Evolves(a, c)
  {
    assert CurrentWriteSet(b) <= CurrentWriteSet(c);
  }

  // ---------------------------------------------------------------------
  // operate

  /** One step of an operation body. None when the body ends here with
      FAIL: at an `Abort`, or when a primitive throws for lack of a current
      transaction (the closure catches the exception and reports FAIL). */
  function RunInstr<S, P>(w: World<S, P>, instr: Instr<S>): (r: Option<World<S, P>>)
    requires Valid(w)
    ensures r.None? <==> instr.Abort? || w.ts.current.None?
    ensures r.Some? ==> Valid(r.value) && |r.value.txns| == |w.txns| && r.value.ts == w.ts
  {
    match instr
    case Abort => None
    case Load(n) =>
      (match ReadT(w, n)
       case Err(_) => None
       case Ok((_, w1)) => Some(w1))
    case Store(n, v) =>
      (match WriteT(w, n, v)
       case Err(_) => None
       case Ok(w1) => Some(w1))
    case Modify(n, f) =>
      (match ReadT(w, n)
       case Err(_) => None
       case Ok((v, w1)) =>
         Some(WriteT(w1, n, f(v)).value))
  }

  /** `readT` inside a transaction only grows its read-set. */
  lemma ReadTEvolves<S, P>(w: World<S, P>, n: Name)
    requires Valid(w) && w.ts.current.Some?
    ensures Evolves(w, ReadT(w, n).value.1)
  {
  }

  /** `writeT` inside a transaction grows its write-set by the one cell it
      changes. */
  lemma WriteTEvolves<S, P>(w: World<S, P>, n: Name, s: Option<S>)
    requires Valid(w) && w.ts.current.Some?
    ensures Evolves(w, WriteT(w, n, s).value)
  {
  }

  lemma RunInstrEvolves<S, P>(w: World<S, P>, instr: Instr<S>)
    requires Valid(w) && RunInstr(w, instr).Some?
    ensures Evolves(w, RunInstr(w, instr).value)
  {
    match instr
    case Load(n) => ReadTEvolves(w, n);
    case Store(n, v) => WriteTEvolves(w, n, v);
    case Modify(n, f) =>
      var (v, w1) := ReadT(w, n).value;
      ReadTEvolves(w, n);
      WriteTEvolves(w1, n, f(v));
      EvolvesTransitive(w, w1, RunInstr(w, instr).value);
  }

  /** `TOperation.go()`: runs the body step by step; it reports DONE exactly
      when the body has no `Abort` and can reach the primitives, and keeps
      whatever the steps before a FAIL did. */
  function RunOp<S, P>(w: World<S, P>, op: Operation<S>): (r: (TAction, World<S, P>))
    requires Valid(w)
    ensures Valid(r.1) && |r.1.txns| == |w.txns| && r.1.ts == w.ts
    ensures r.0 == Done <==> (forall k | 0 <= k < |op| :: !op[k].Abort?) && (w.ts.current.Some? || op == [])
    ensures w.ts.current.None? ==> r.1 == w
    decreases |op|
  {
    if |op| == 0 then (Done, w)
    else
      match RunInstr(w, op[0])
      case None => (Fail, w)
      case Some(w1) =>
        var rest := op[1..];
        assert forall k | 1 <= k < |op| :: op[k] == rest[k - 1];
        RunOp(w1, rest)
  }

  lemma {:induction false} RunOpEvolves<S, P>(w: World<S, P>, op: Operation<S>)
    requires Valid(w)
    ensures Evolves(w, RunOp(w, op).1)
    decreases |op|
  {
    if |op| > 0 {
      match RunInstr(w, op[0])
      case None =>
      case Some(w1) =>
        RunInstrEvolves(w, op[0]);
        RunOpEvolves(w1, op[1..]);
        EvolvesTransitive(w, w1, RunOp(w, op).1);
    }
  }

  /** `operate`: runs the operations in list order and stops with false at
      the first one that reports FAIL; true when none does. */
  function Operate<S, P>(w: World<S, P>, ops: seq<Operation<S>>): (r: (bool, World<S, P>))
    requires Valid(w)
    ensures Valid(r.1) && |r.1.txns| == |w.txns| && r.1.ts == w.ts
    ensures r.0 ==> forall k, i | 0 <= k < |ops| && 0 <= i < |ops[k]| :: !ops[k][i].Abort?
    ensures w.ts.current.None? ==> r.1 == w
    decreases |ops|
  {
    if |ops| == 0 then (true, w)
    else
      var (action, w1) := RunOp(w, ops[0]);
      if action == Fail then (false, w1) else Operate(w1, ops[1..])
  }

  /** Operations only grow the current transaction's sets and only change
      cells it has registered for writing. */
  lemma {:induction false} OperateEvolves<S, P>(w: World<S, P>, ops: seq<Operation<S>>)
    requires Valid(w)
    ensures Evolves(w, Operate(w, ops).1)
    decreases |ops|
  {
    if |ops| > 0 {
      var (action, w1) := RunOp(w, ops[0]);
      RunOpEvolves(w, ops[0]);
      if action == Done {
        OperateEvolves(w1, ops[1..]);
        EvolvesTransitive(w, w1, Operate(w, ops).1);
      }
    }
  }

  /** `readT` and `writeT` register cells in the most recently built
      transaction, so operating on behalf of any other transaction leaves
      that transaction's record untouched. */
  lemma OperateLeavesOthers<S, P>(w: World<S, P>, self: TxnId)
    requires Valid(w) && self < |w.txns| && w.ts.current != Some(self)
    ensures Operate(w, w.txns[self].ops).1.txns[self] == w.txns[self]
  {
    OperateEvolves(w, w.txns[self].ops);
  }

  /** Running `a + b` is running `a`, then `b` only if `a` succeeded. */
  lemma {:induction false} OperateAppend<S, P>(w: World<S, P>, a: seq<Operation<S>>, b: seq<Operation<S>>)
    requires Valid(w)
    ensures Operate(w, a + b) == if Operate(w, a).0 then Operate(Operate(w, a).1, b) else Operate(w, a)
    decreases |a|
  {
    if |a| == 0 {
      assert a + b == b;
    } else {
      assert (a + b)[0] == a[0];
      assert (a + b)[1..] == a[1..] + b;
      var w1 := RunOp(w, a[0]).1;
      if RunOp(w, a[0]).0 == Done {
        OperateAppend(w1, a[1..], b);
      }
    }
  }

  /** `operate` is true exactly when every operation, run on the world its
      predecessors left, reports DONE. */
  lemma {:induction false} OperateTrueIffAllDone<S, P>(w: World<S, P>, ops: seq<Operation<S>>)
    requires Valid(w)
    ensures Operate(w, ops).0
        <==> forall k | 0 <= k < |ops| :: RunOp(Operate(w, ops[..k]).1, ops[k]).0 == Done
  {
    if |ops| > 0 {
      var p, o := ops[..|ops| - 1], ops[|ops| - 1];
      OperateTrueIffAllDone(w, p);
      assert p + [o] == ops;
      OperateAppend(w, p, [o]);
      assert forall k | 0 <= k <= |p| :: ops[..k] == p[..k];
      assert ops[..|p|] == p;
    }
  }

  /** At the first FAIL, `operate` returns false with the world that
      operation left: the operations after it never run. */
  lemma OperateStopsAtFirstFail<S, P>(w: World<S, P>, a: seq<Operation<S>>, o: Operation<S>, b: seq<Operation<S>>)
    requires Valid(w)
    requires Operate(w, a).0
    requires RunOp(Operate(w, a).1, o).0 == Fail
    ensures Operate(w, a + [o] + b) == (false, RunOp(Operate(w, a).1, o).1)
  {
    OperateAppend(w, a, [o]);
    OperateAppend(w, a + [o], b);
  }

  // ---------------------------------------------------------------------
  // commit

  /** The read-set member's live state is present and its backup is missing
      or different: commit stops at once with false. */
  ghost predicate Clashes<S>(states: map<Name, Option<S>>, backups: map<Name, Option<S>>, n: Name) {
    Get(states, n).Some? && Get(states, n) != Get(backups, n)
  }

  /** Live state and backup agree, both absent or both the same state. */
  ghost predicate Matches<S>(states: map<Name, Option<S>>, backups: map<Name, Option<S>>, n: Name) {
    Get(states, n) == Get(backups, n)
  }

  /** The validation loop of `commit` from the given point of the queue, with
      the `status` it has so far. The branch where the live state is absent
      but the backup is present sets status false WITHOUT leaving the loop,
      so the last member visited decides unless some member clashes. */
  function CommitLoop<S(==)>(states: map<Name, Option<S>>, backups: map<Name, Option<S>>, queue: seq<Name>, status: bool): (r: bool)
    ensures r <==> (forall i | 0 <= i < |queue| :: !Clashes(states, backups, queue[i]))
                   && (if |queue| == 0 then status else Matches(states, backups, queue[|queue| - 1]))
    decreases |queue|
  {
    if |queue| == 0 then status
    else
      var n := queue[0];
      var current := Get(states, n);
      var backup := Get(backups, n);
      assert forall i | 1 <= i < |queue| :: queue[i] == queue[1..][i - 1];
      if current.Some? then
        if backup.None? || current.value != backup.value then false
        else CommitLoop(states, backups, queue[1..], true)
      else
        CommitLoop(states, backups, queue[1..], backup.None?)
  }

  /** The backup map of a record, empty when it was never set. */
  function Backups<S>(r: Record<S>): map<Name, Option<S>> {
    r.oldValues.GetOr(map[])
  }

  /** `commit`, visiting the read-set in the order of `queue`. With an empty
      read-set it is true; an unset backup map makes the first visit throw;
      a clashing member makes it false whatever the order; when every member
      matches it is true whatever the order. */
  function Commit<S(==), P>(w: World<S, P>, self: TxnId, queue: seq<Name>): (r: Result<bool>)
    requires self < |w.txns|
    requires IsEnumeration(queue, w.txns[self].record.readSet)
    ensures var rec := w.txns[self].record;
      && (r.Err? <==> rec.oldValues.None? && rec.readSet != {})
      && (r.Err? ==> r.error == NullPointer)
      && (rec.readSet == {} ==> r == Ok(true))
      && (r.Ok? && (exists n | n in rec.readSet :: Clashes(w.states, Backups(rec), n)) ==> r == Ok(false))
      && (r.Ok? && (forall n | n in rec.readSet :: Matches(w.states, Backups(rec), n)) ==> r == Ok(true))
      && (r.Ok? ==> (r.value <==> (forall n | n in rec.readSet :: !Clashes(w.states, Backups(rec), n))
                                   && (queue == [] || Matches(w.states, Backups(rec), queue[|queue| - 1]))))
  {
    var rec := w.txns[self].record;
    assert queue == [] <==> rec.readSet == {} by {
      if queue != [] { assert queue[0] in rec.readSet; }
    }
    if |queue| > 0 && rec.oldValues.None? then Err(NullPointer)
    else
      var r := CommitLoop(w.states, Backups(rec), queue, true);
      assert forall i | 0 <= i < |queue| :: queue[i] in rec.readSet;
      assert (forall n | n in rec.readSet :: Matches(w.states, Backups(rec), n)) ==> r;
      Ok(r)
  }

  /** The result of `commit` depends on the iteration order of the read-set:
      one member whose cell was emptied after its backup was taken, and one
      that still matches, commit in one order and not in the other. */
  lemma CommitDependsOnOrder()
    ensures var rec := NewRecord<int>().(readSet := {"a", "b"}, oldValues := Some(map["a" := Some(1)]));
      var w: World<int, int> := World(map[], map[], map[], [Txn("t", rec, [])], Transactions(0, None));
      && IsEnumeration(["a", "b"], rec.readSet) && IsEnumeration(["b", "a"], rec.readSet)
      && Commit<int, int>(w, 0, ["a", "b"]) == Ok(true)
      && Commit<int, int>(w, 0, ["b", "a"]) == Ok(false)
  {
    var rec := NewRecord<int>().(readSet := {"a", "b"}, oldValues := Some(map["a" := Some(1)]));
    var w: World<int, int> := World(map[], map[], map[], [Txn("t", rec, [])], Transactions(0, None));
    assert "a" != "b";
    assert Matches(w.states, Backups(rec), "b");
    assert !Matches(w.states, Backups(rec), "a");
  }

  // ---------------------------------------------------------------------
  // rollback and release

  /** Reference definition of the state table after a rollback: every name
      in `written` holds its backup (null when there is none) and every other
      entry stays as it was. */
  ghost function RestoredTable<S>(states: map<Name, Option<S>>, written: set<Name>, backups: map<Name, Option<S>>): map<Name, Option<S>> {
    map n | n in states.Keys + written :: if n in written then Get(backups, n) else states[n]
  }

  /** Reference definition of the ownership table once `self` gives up the
      names in `written`: exactly the entries naming `self` for those names
      are gone. */
  ghost function ReleasedTable(owners: map<Name, TxnId>, written: set<Name>, self: TxnId): map<Name, TxnId> {
    map n | n in owners && !(n in written && owners[n] == self) :: owners[n]
  }

  /** The restore loop of `rollback`: writes each queued name's backup (null
      when there is none) into the state table. */
  function Restore<S, P>(w: World<S, P>, backups: map<Name, Option<S>>, queue: seq<Name>): (w': World<S, P>)
    ensures forall n | n in queue :: n in w'.states && w'.states[n] == Get(backups, n)
    ensures SameOutside(w.states, w'.states, set n | n in queue)
    ensures w' == w.(states := w'.states)
    decreases |queue|
  {
    if |queue| == 0 then w
    else
      var n := queue[0];
      assert forall m | m in queue :: m == n || m in queue[1..];
      assert (set m | m in queue) == {n} + (set m | m in queue[1..]);
      Restore(Write(w, n, Get(backups, n)), backups, queue[1..])
  }

  /** Whatever the order, restoring an enumeration of `written` yields the
      reference table. */
  lemma RestoreIsRestoredTable<S, P>(w: World<S, P>, backups: map<Name, Option<S>>, queue: seq<Name>, written: set<Name>)
    requires IsEnumeration(queue, written)
    ensures Restore(w, backups, queue) == w.(states := RestoredTable(w.states, written, backups))
  {
    var w' := Restore(w, backups, queue);
    var table := RestoredTable(w.states, written, backups);
    assert (set n | n in queue) == written;
    assert forall n :: n in w'.states <==> n in table;
    assert w'.states == table;
  }

  /** The release loop: drops a queued name's ownership entry only when this
      transaction owns it. */
  function ReleaseLoop<S, P>(w: World<S, P>, self: TxnId, queue: seq<Name>): (w': World<S, P>)
    ensures forall n :: n in w'.owners <==> n in w.owners && !(n in queue && w.owners[n] == self)
    ensures forall n | n in w'.owners :: w'.owners[n] == w.owners[n]
    ensures w' == w.(owners := w'.owners)
    decreases |queue|
  {
    if |queue| == 0 then w
    else
      var n := queue[0];
      var w1 := if GetOwner(w, n) == Some(self) then StateManager.ReleaseOwnership(w, n) else w;
      assert forall m | m in queue :: m == n || m in queue[1..];
      ReleaseLoop(w1, self, queue[1..])
  }

  /** `releaseOwnership`: removes the ownership entry of each write-set name
      owned by this transaction, whatever the order of the visit; entries of
      other owners and of names outside the write-set stay. */
  function ReleaseOwnership<S, P>(w: World<S, P>, self: TxnId, queue: seq<Name>): (w': World<S, P>)
    requires self < |w.txns|
    requires IsEnumeration(queue, w.txns[self].record.writeSet)
    ensures w' == w.(owners := ReleasedTable(w.owners, w.txns[self].record.writeSet, self))
    ensures forall n | n in w.txns[self].record.writeSet :: GetOwner(w', n) != Some(self)
  {
    var w' := ReleaseLoop(w, self, queue);
    assert forall n :: n in w'.owners <==> n in ReleasedTable(w.owners, w.txns[self].record.writeSet, self);
    w'
  }

  /** `rollback`: with an unset backup map and a non-empty write-set the first
      backup lookup throws and nothing changes. Otherwise, whatever the order
      of the visit, the state table becomes the reference restored table and
      ownership is released; nothing else changes. */
  function Rollback<S, P>(w: World<S, P>, self: TxnId, queue: seq<Name>): (r: Result<World<S, P>>)
    requires self < |w.txns|
    requires IsEnumeration(queue, w.txns[self].record.writeSet)
    ensures var rec := w.txns[self].record;
      && (r.Err? <==> rec.oldValues.None? && rec.writeSet != {})
      && (r.Err? ==> r.error == NullPointer)
      && (r.Ok? ==> r.value == w.(states := RestoredTable(w.states, rec.writeSet, Backups(rec)),
                                  owners := ReleasedTable(w.owners, rec.writeSet, self)))
  {
    var rec := w.txns[self].record;
    assert queue == [] <==> rec.writeSet == {} by {
      if queue != [] { assert queue[0] in rec.writeSet; }
    }
    if |queue| > 0 && rec.oldValues.None? then Err(NullPointer)
    else
      var w1 := Restore(w, Backups(rec), queue);
      RestoreIsRestoredTable(w, Backups(rec), queue, rec.writeSet);
      Ok(ReleaseOwnership(w1, self, queue))
  }

  /** After `rollback` every write-set name reads as its backup, every other
      name reads as before, and no write-set name is owned by `self`. */
  lemma RollbackRestores<S, P>(w: World<S, P>, self: TxnId, queue: seq<Name>)
    requires self < |w.txns|
    requires IsEnumeration(queue, w.txns[self].record.writeSet)
    requires Rollback(w, self, queue).Ok?
    ensures var rec, w' := w.txns[self].record, Rollback(w, self, queue).value;
      && (forall n | n in rec.writeSet :: Read(w', n) == Get(Backups(rec), n))
      && SameOutside(w.states, w'.states, rec.writeSet)
      && (forall n | n in rec.writeSet :: GetOwner(w', n) != Some(self))
      && (forall n | n !in rec.writeSet :: GetOwner(w', n) == GetOwner(w, n))
  {
  }

  /** The world after `rollback` does not depend on the order in which the
      write-set is visited. */
  lemma RollbackOrderIndependent<S, P>(w: World<S, P>, self: TxnId, q1: seq<Name>, q2: seq<Name>)
    requires self < |w.txns|
    requires IsEnumeration(q1, w.txns[self].record.writeSet)
    requires IsEnumeration(q2, w.txns[self].record.writeSet)
    ensures Rollback(w, self, q1) == Rollback(w, self, q2)
  {
  }

  lemma RestoredTableIdempotent<S>(states: map<Name, Option<S>>, written: set<Name>, backups: map<Name, Option<S>>)
    ensures var once := RestoredTable(states, written, backups);
      RestoredTable(once, written, backups) == once
  {
    var once := RestoredTable(states, written, backups);
    var twice := RestoredTable(once, written, backups);
    assert forall n :: n in twice <==> n in once;
  }

  lemma ReleasedTableIdempotent(owners: map<Name, TxnId>, written: set<Name>, self: TxnId)
    ensures var once := ReleasedTable(owners, written, self);
      ReleasedTable(once, written, self) == once
  {
    var once := ReleasedTable(owners, written, self);
    var twice := ReleasedTable(once, written, self);
    assert forall n :: n in twice <==> n in once;
  }

  /** Rolling back twice leaves the world exactly as rolling back once. */
  lemma RollbackIdempotent<S, P>(w: World<S, P>, self: TxnId, q1: seq<Name>, q2: seq<Name>)
    requires self < |w.txns|
    requires IsEnumeration(q1, w.txns[self].record.writeSet)
    requires Rollback(w, self, q1).Ok?
    requires IsEnumeration(q2, Rollback(w, self, q1).value.txns[self].record.writeSet)
    ensures Rollback(Rollback(w, self, q1).value, self, q2) == Rollback(w, self, q1)
  {
    var rec := w.txns[self].record;
    RestoredTableIdempotent(w.states, rec.writeSet, Backups(rec));
    ReleasedTableIdempotent(w.owners, rec.writeSet, self);
  }

  // ---------------------------------------------------------------------
  // one iteration of run

  /** How one pass of the `run` loop ends. `Idle`: the record is already
      complete, so the loop does not run. `Failed`: an operation reported
      FAIL; rolled back and marked complete, never retried. `Retry`: commit
      validation failed; rolled back, left incomplete. `Committed`: ownership
      released, marked complete. `Raised`: an exception was caught; the record
      stays incomplete, so the loop runs again. */
  datatype Outcome = Idle | Failed | Committed | Retry | Raised(error: Error)

  datatype Step<!S, P> = Step(outcome: Outcome, world: World<S, P>)

  /** `record.setStatus(true)` on transaction `self`. */
  function MarkCompleted<S, P>(w: World<S, P>, self: TxnId): World<S, P>
    requires self < |w.txns|
  {
    WithRecord(w, self, SetStatus(w.txns[self].record, true))
  }

  /** One pass of the `run` loop of transaction `self`; `enum` fixes the
      iteration order of every read-set and write-set. A pass on a complete
      record does nothing; afterwards the record is complete exactly when the
      pass failed or committed. Which outcome a pass has, and what it does to
      the tables, is stated by `RunStepOutcome` and `RunStepEffect`. */
  function RunStep<S(==), P>(w: World<S, P>, self: TxnId, enum: set<Name> -> seq<Name>): (r: Step<S, P>)
    requires Valid(w) && self < |w.txns|
    requires IsEnumerator(enum)
    ensures Valid(r.world) && |r.world.txns| == |w.txns| && r.world.ts == w.ts && r.world.memory == w.memory
    ensures r.outcome.Idle? <==> w.txns[self].record.status
    ensures r.outcome.Idle? ==> r.world == w
    ensures r.world.txns[self].record.status <==> r.outcome.Idle? || r.outcome.Failed? || r.outcome.Committed?
  {
    var t := w.txns[self];
    if t.record.status then Step(Idle, w)
    else
      var (ok, w1) := Operate(w, t.ops);
      OperateEvolves(w, t.ops);
      var rec := w1.txns[self].record;
      if !ok then
        match Rollback(w1, self, enum(rec.writeSet))
        case Err(e) => Step(Raised(e), w1)
        case Ok(w2) => Step(Failed, MarkCompleted(w2, self))
      else
        match Commit(w1, self, enum(rec.readSet))
        case Err(e) => Step(Raised(e), w1)
        case Ok(valid) =>
          if valid then
            Step(Committed, MarkCompleted(ReleaseOwnership(w1, self, enum(rec.writeSet)), self))
          else
            match Rollback(w1, self, enum(rec.writeSet))
            case Err(e) => Step(Raised(e), w1)
            case Ok(w2) => Step(Retry, w2)
  }

  /** Which way a pass on an incomplete record ends, from the result of
      `operate`, the backup map and the validation of the read-set. */
  lemma RunStepOutcome<S, P>(w: World<S, P>, self: TxnId, enum: set<Name> -> seq<Name>)
    requires Valid(w) && self < |w.txns| && IsEnumerator(enum)
    requires !w.txns[self].record.status
    ensures var r := RunStep(w, self, enum);
      var (ok, w1) := Operate(w, w.txns[self].ops);
      var rec := w1.txns[self].record;
      && (r.outcome.Failed? ==> !ok)
      && (r.outcome.Committed? || r.outcome.Retry? ==> ok)
      && (r.outcome.Raised? ==> r.outcome.error == NullPointer && rec.oldValues.None?)
      && (!ok && rec.oldValues.None? && rec.writeSet != {} ==> r.outcome == Raised(NullPointer))
      && (!ok && (rec.oldValues.Some? || rec.writeSet == {}) ==> r.outcome.Failed?)
      && (ok && rec.oldValues.None? && rec.readSet != {} ==> r.outcome == Raised(NullPointer))
      && (ok && rec.readSet == {} ==> r.outcome.Committed?)
      && (ok && rec.oldValues.Some? && (forall n | n in rec.readSet :: Matches(w1.states, Backups(rec), n)) ==> r.outcome.Committed?)
      && (ok && rec.oldValues.Some? && (exists n | n in rec.readSet :: Clashes(w1.states, Backups(rec), n)) ==> r.outcome.Retry?)
  {
    var (ok, w1) := Operate(w, w.txns[self].ops);
    var rec := w1.txns[self].record;
    if ok {
      var c := Commit(w1, self, enum(rec.readSet));
      assert RunStep(w, self, enum).outcome == (
        match c
        case Err(e) => Raised(e)
        case Ok(valid) => if valid then Committed else
          if Rollback(w1, self, enum(rec.writeSet)).Ok? then Retry else Raised(NullPointer));
    } else {
      var b := Rollback(w1, self, enum(rec.writeSet));
      assert RunStep(w, self, enum).outcome == if b.Ok? then Failed else Raised(b.error);
    }
  }

  /** What a pass leaves behind. A raised exception leaves the world the
      operations made. A commit keeps the state table and no read-set member
      clashes with its backup. A failure or retry rolls the write-set back to
      its backups and keeps every other cell. Every outcome but a raised
      exception releases the write-set's ownership, and no transaction
      record changes beyond what the operations did except the completion
      flag of `self`. */
  lemma RunStepEffect<S, P>(w: World<S, P>, self: TxnId, enum: set<Name> -> seq<Name>)
    requires Valid(w) && self < |w.txns| && IsEnumerator(enum)
    requires !w.txns[self].record.status
    ensures var r := RunStep(w, self, enum);
      var w1 := Operate(w, w.txns[self].ops).1;
      var rec := w1.txns[self].record;
      && (r.outcome.Raised? ==> r.world == w1)
      && (r.outcome.Retry? ==> r.world.txns == w1.txns)
      && (r.outcome.Failed? || r.outcome.Committed? ==> r.world.txns == MarkCompleted(w1, self).txns)
      && (r.outcome.Committed? ==>
            && r.world.states == w1.states
            && forall n | n in rec.readSet :: !Clashes(w1.states, Backups(rec), n))
      && (r.outcome.Failed? || r.outcome.Retry? ==>
            && (forall n | n in rec.writeSet :: Read(r.world, n) == Get(Backups(rec), n))
            && SameOutside(w1.states, r.world.states, rec.writeSet))
      && (!r.outcome.Raised? ==>
            forall n | n in rec.writeSet :: GetOwner(r.world, n) != Some(self))
  {
    var w1 := Operate(w, w.txns[self].ops).1;
    var rec := w1.txns[self].record;
    if Operate(w, w.txns[self].ops).0 && Commit(w1, self, enum(rec.readSet)) == Ok(true) {
      var w2 := ReleaseOwnership(w1, self, enum(rec.writeSet));
      assert RunStep(w, self, enum).world == MarkCompleted(w2, self);
    }
  }

  /** When the transaction runs as the current one and its backup map reads
      like the state table before the pass (a `getStateTable` snapshot), a
      pass that fails or must retry leaves every cell reading as it did
      before the pass. */
  lemma RunStepRestoresSnapshot<S, P>(w: World<S, P>, self: TxnId, enum: set<Name> -> seq<Name>)
    requires Valid(w) && self < |w.txns| && IsEnumerator(enum)
    requires w.ts.current == Some(self)
    requires w.txns[self].record.oldValues.Some?
    requires forall n :: Get(w.txns[self].record.oldValues.value, n) == Read(w, n)
    ensures var r := RunStep(w, self, enum);
      r.outcome.Failed? || r.outcome.Retry? ==> forall n :: Read(r.world, n) == Read(w, n)
  {
    var r := RunStep(w, self, enum);
    if r.outcome.Failed? || r.outcome.Retry? {
      var w1 := Operate(w, w.txns[self].ops).1;
      OperateEvolves(w, w.txns[self].ops);
      assert Grows(w.txns[self], w1.txns[self]);
      var rec := w1.txns[self].record;
      assert CurrentWriteSet(w1) == rec.writeSet;
      RunStepEffect(w, self, enum);
      forall n
        ensures Read(r.world, n) == Read(w, n)
      {
        if n !in rec.writeSet {
          assert Read(r.world, n) == Read(w1, n);
        }
      }
    }
  }

  /** The `run` loop cut off after `k` passes. A pass on a completed record
      is idle, so once the record is complete the world no longer changes. */
  function RunPasses<S(==), P>(w: World<S, P>, self: TxnId, enum: set<Name> -> seq<Name>, k: nat): (w': World<S, P>)
    requires Valid(w) && self < |w.txns| && IsEnumerator(enum)
    ensures Valid(w') && |w'.txns| == |w.txns| && w'.ts == w.ts && w'.memory == w.memory
    ensures w.txns[self].record.status ==> w' == w
    decreases k
  {
    if k == 0 then w else RunStep(RunPasses(w, self, enum, k - 1), self, enum).world
  }

  /** An invariant that every pass carries from step `j` to step `j + 1`
      holds after any number of passes of the `run` loop. */
  lemma {:induction false} RunPassesKeep<S, P>(w: World<S, P>, self: TxnId, enum: set<Name> -> seq<Name>, k: nat,
                                                  inv: (World<S, P>, nat) -> bool)
    requires Valid(w) && self < |w.txns| && IsEnumerator(enum)
    requires inv(w, 0)
    requires forall v: World<S, P>, j: nat | inv(v, j) && Valid(v) && self < |v.txns| :: inv(RunStep(v, self, enum).world, j + 1)
    ensures inv(RunPasses(w, self, enum, k), k)
    decreases k
  {
    if k > 0 {
      RunPassesKeep(w, self, enum, k - 1, inv);
    }
  }
}

=== FILE: java_int.dfy ===
/** Java's 32-bit `int`: the range and two's-complement wrap-around. */
module JavaInt {

  const MIN_VALUE: int := -0x8000_0000
  const MAX_VALUE: int := 0x7fff_ffff
  const MODULUS: int := 0x1_0000_0000

  type Int32 = x: int | -0x8000_0000 <= x <= 0x7fff_ffff

  /** Narrows an exact integer to the Java `int` congruent to it modulo 2^32. */
  function Wrap(x: int): (r: Int32)
    ensures (x - r) % MODULUS == 0
    ensures MIN_VALUE <= x <= MAX_VALUE ==> r == x
  {
    var k := (x - MIN_VALUE) / MODULUS;
    assert x - MIN_VALUE == k * MODULUS + (x - MIN_VALUE) % MODULUS;
    (x - MIN_VALUE) % MODULUS + MIN_VALUE
  }

  /** Congruent integers wrap to the same `int`. */
  lemma WrapCongruent(a: int, b: int)
    requires (a - b) % MODULUS == 0
    ensures Wrap(a) == Wrap(b)
  {
    var ra, rb := Wrap(a), Wrap(b);
    assert (ra - rb) % MODULUS == 0 by {
      var ka, kb, k := (a - ra) / MODULUS, (b - rb) / MODULUS, (a - b) / MODULUS;
      assert a - ra == ka * MODULUS;
      assert b - rb == kb * MODULUS;
      assert a - b == k * MODULUS;
      assert ra - rb == (k - ka + kb) * MODULUS;
    }
    var d := (ra - rb) / MODULUS;
    assert ra - rb == d * MODULUS;
    assert -MODULUS < ra - rb < MODULUS;
    assert d == 0;
  }

  /** Multiples of 2^32 are closed under the combination the string hash uses. */
  lemma MultipleCombine(a: int, b: int)
    requires a % MODULUS == 0 && b % MODULUS == 0
    ensures (31 * b - a) % MODULUS == 0
  {
    var ka, kb := a / MODULUS, b / MODULUS;
    assert a == ka * MODULUS;
    assert b == kb * MODULUS;
    MultipleOfModulus(31 * kb - ka);
    assert 31 * b - a == (31 * kb - ka) * MODULUS;
  }

  lemma MultipleOfModulus(k: int)
    ensures (k * MODULUS) % MODULUS == 0
  {
  }

  /** One step of the string hash: if h(p) agrees with P(p) modulo 2^32 and
      h(s) is 31 * h(p) + c narrowed, then h(s) agrees with 31 * P(p) + c. */
  lemma HashStep(hp: int, pp: int, c: int, h: int)
    requires (hp - pp) % MODULUS == 0
    requires (31 * hp + c - h) % MODULUS == 0
    ensures (h - (31 * pp + c)) % MODULUS == 0
  {
    MultipleCombine(31 * hp + c - h, hp - pp);
    assert 31 * (hp - pp) - (31 * hp + c - h) == h - (31 * pp + c);
  }
}

=== FILE: record.dfy ===
/** `foop.core.Record`: the bookkeeping of one transaction, and the two
    bookkeeping methods of `Transaction` that grow its read-set and write-set. */
module Records {
  import opened Base
  import opened JavaInt

  /** `version` and `description` are None until set, as a fresh Java Record
      leaves them null; `oldValues` (the backup map) is None until
      `setOldValues` is called. Backups may hold null states (None). */
  datatype Record<S> = Record(
    status: bool,
    version: Option<Int32>,
    description: Option<string>,
    readSet: set<Name>,
    writeSet: set<Name>,
    oldValues: Option<map<Name, Option<S>>>)

  /** The constructor: not completed, both sets empty, everything else unset. */
  function NewRecord<S>(): (r: Record<S>)
    ensures !r.status
    ensures r.readSet == {} && r.writeSet == {}
    ensures r.oldValues.None? && r.version.None? && r.description.None?
  {
    Record(false, None, None, {}, {}, None)
  }

  /** The generated setter of `status`; no other field changes. */
  function SetStatus<S>(r: Record<S>, status: bool): (r': Record<S>)
    ensures r'.status == status
    ensures r' == r.(status := r'.status)
  {
    r.(status := status)
  }

  /** The generated setter of `version`; no other field changes. */
  function SetVersion<S>(r: Record<S>, version: Int32): (r': Record<S>)
    ensures r'.version == Some(version)
    ensures r' == r.(version := r'.version)
  {
    r.(version := Some(version))
  }

  /** The generated setter of `description`; no other field changes. */
  function SetDescription<S>(r: Record<S>, description: string): (r': Record<S>)
    ensures r'.description == Some(description)
    ensures r' == r.(description := r'.description)
  {
    r.(description := Some(description))
  }

  /** The generated setter of the backup map; no other field changes. */
  function SetOldValues<S>(r: Record<S>, oldValues: map<Name, Option<S>>): (r': Record<S>)
    ensures r'.oldValues == Some(oldValues)
    ensures r' == r.(oldValues := r'.oldValues)
  {
    r.(oldValues := Some(oldValues))
  }

  /** `Transaction.addWriteSetMembers`: every given name joins the write-set. */
  function AddWriteSetMembers<S>(r: Record<S>, names: seq<Name>): (r': Record<S>)
    ensures r'.writeSet == r.writeSet + (set n | n in names)
    ensures r' == r.(writeSet := r'.writeSet)
    decreases |names|
  {
    if |names| == 0 then r
    else AddWriteSetMembers(r.(writeSet := r.writeSet + {names[0]}), names[1..])
  }

  /** `Transaction.addReadSetMembers`: a given name joins the read-set unless
      it is already in the write-set. */
  function AddReadSetMembers<S>(r: Record<S>, names: seq<Name>): (r': Record<S>)
    ensures r'.readSet == r.readSet + (set n | n in names && n !in r.writeSet)
    ensures r' == r.(readSet := r'.readSet)
    decreases |names|
  {
    if |names| == 0 then r
    else if names[0] in r.writeSet then AddReadSetMembers(r, names[1..])
    else AddReadSetMembers(r.(readSet := r.readSet + {names[0]}), names[1..])
  }

  /** One transactional access, as `readT` and `writeT` register it. */
  datatype Access = ReadAccess(name: Name) | WriteAccess(name: Name)

  /** The record after registering a history of accesses, oldest first. */
  function Replay<S>(r: Record<S>, trace: seq<Access>): Record<S> {
    if |trace| == 0 then r
    else
      var before := Replay(r, trace[..|trace| - 1]);
      match trace[|trace| - 1]
      case ReadAccess(n) => AddReadSetMembers(before, [n])
      case WriteAccess(n) => AddWriteSetMembers(before, [n])
  }

  /** Some access of the trace before index `k` writes `n`. */
  ghost predicate WrittenBefore(trace: seq<Access>, n: Name, k: int) {
    exists j | 0 <= j < k && j < |trace| :: trace[j] == WriteAccess(n)
  }

  /** From a new record, the write-set is exactly the names written. */
  lemma {:induction false} ReplayWriteSet<S>(trace: seq<Access>, n: Name)
    ensures n in Replay(NewRecord<S>(), trace).writeSet <==> WrittenBefore(trace, n, |trace|)
  {
    if |trace| > 0 {
      var p := trace[..|trace| - 1];
      ReplayWriteSet<S>(p, n);
      assert forall j | 0 <= j < |p| :: p[j] == trace[j];
    }
  }

  /** From a new record, a name is in the read-set exactly when some read of
      it comes before every write of it. */
  lemma {:induction false} ReplayReadSet<S>(trace: seq<Access>, n: Name)
    ensures n in Replay(NewRecord<S>(), trace).readSet
        <==> exists i | 0 <= i < |trace| :: trace[i] == ReadAccess(n) && !WrittenBefore(trace, n, i)
  {
    if |trace| > 0 {
      var k := |trace| - 1;
      var p := trace[..k];
      ReplayReadSet<S>(p, n);
      assert forall j | 0 <= j < |p| :: p[j] == trace[j];
      assert forall i | 0 <= i <= k :: WrittenBefore(p, n, i) == WrittenBefore(trace, n, i);
      if trace[k] == ReadAccess(n) {
        ReplayWriteSet<S>(p, n);
        assert WrittenBefore(p, n, |p|) == WrittenBefore(trace, n, k);
      }
    }
  }

  /** A name ends up in both sets exactly when it was read at a point where
      it had not been written yet, and was written afterwards. */
  lemma BothSetsIffReadBeforeWrite<S>(trace: seq<Access>, n: Name)
    ensures (n in Replay(NewRecord<S>(), trace).readSet && n in Replay(NewRecord<S>(), trace).writeSet)
        <==> (exists i, j | 0 <= i < j < |trace| :: trace[i] == ReadAccess(n) && trace[j] == WriteAccess(n)
                                                   && !WrittenBefore(trace, n, i))
  {
    var r := Replay(NewRecord<S>(), trace);
    ReplayReadSet<S>(trace, n);
    ReplayWriteSet<S>(trace, n);
    if n in r.readSet && n in r.writeSet {
      var i :| 0 <= i < |trace| && trace[i] == ReadAccess(n) && !WrittenBefore(trace, n, i);
      var j :| 0 <= j < |trace| && trace[j] == WriteAccess(n);
      assert i < j;
    }
    if exists i, j | 0 <= i < j < |trace| :: trace[i] == ReadAccess(n) && trace[j] == WriteAccess(n)
                                           && !WrittenBefore(trace, n, i) {
      var i, j :| 0 <= i < j < |trace| && trace[i] == ReadAccess(n) && trace[j] == WriteAccess(n)
                                      && !WrittenBefore(trace, n, i);
      assert WrittenBefore(trace, n, |trace|);
    }
  }
}

=== FILE: state_manager.dfy ===
/** `foop.core.StateManager`: the registry primitives over the three tables,
    the transactional primitives `readT`/`writeT`, and the fluent builder
    `newTransaction(..).op(..).done()`. Each call is one atomic step; the
    readers-writer lock that makes it atomic in the source is not modelled. */
module StateManager {
  import opened Base
  import opened JavaInt
  import opened Variables
  import opened Records
  import opened Worlds

  /** The constructor together with the initial `Transactions` utility:
      empty tables, version 0, no current transaction. */
  function Init<S, P>(): (w: World<S, P>)
    ensures Valid(w) && w.ts.current == None && w.ts.version == 0 && w.txns == []
    ensures forall n :: Read(w, n) == None && GetOwner(w, n) == None && n !in w.memory
  {
    World(map[], map[], map[], [], Transactions(0, None))
  }

  // ---------------------------------------------------------------------
  // Registry primitives

  /** `read`: the cell's current state, absent when the table has no entry
      for it or a null one. */
  function Read<S, P>(w: World<S, P>, n: Name): (r: Option<S>)
    ensures r.Some? <==> n in w.states && w.states[n].Some?
    ensures r.Some? ==> r.value == w.states[n].value
  {
    Get(w.states, n)
  }

  /** `write`: the entry for `n` becomes `s`; no other entry and no other
      table changes. */
  function Write<S, P>(w: World<S, P>, n: Name, s: Option<S>): (w': World<S, P>)
    ensures n in w'.states && w'.states[n] == s && Read(w', n) == s
    ensures w'.states.Keys == w.states.Keys + {n}
    ensures forall m | m in w.states && m != n :: w'.states[m] == w.states[m]
    ensures w' == w.(states := w'.states)
  {
    w.(states := w.states[n := s])
  }

  /** `getOwner`: the transaction owning the cell, if any. */
  function GetOwner<S, P>(w: World<S, P>, n: Name): (r: Option<TxnId>)
    ensures r.Some? <==> n in w.owners
    ensures r.Some? ==> r.value == w.owners[n]
  {
    if n in w.owners then Some(w.owners[n]) else None
  }

  /** `setOwner`: afterwards `t` owns `n`; no other entry changes. */
  function SetOwner<S, P>(w: World<S, P>, n: Name, t: TxnId): (w': World<S, P>)
    ensures GetOwner(w', n) == Some(t)
    ensures forall m | m != n :: GetOwner(w', m) == GetOwner(w, m)
    ensures w' == w.(owners := w'.owners)
  {
    w.(owners := w.owners[n := t])
  }

  /** `releaseOwnership`: only the key `n` leaves the ownership table. */
  function ReleaseOwnership<S, P>(w: World<S, P>, n: Name): (w': World<S, P>)
    ensures GetOwner(w', n) == None
    ensures w'.owners.Keys == w.owners.Keys - {n}
    ensures forall m | m != n :: GetOwner(w', m) == GetOwner(w, m)
    ensures w' == w.(owners := w'.owners)
  {
    w.(owners := w.owners - {n})
  }

  /** `make`: stores a new Variable named `n` with the given properties in
      memory, replacing any earlier Variable of that name, and returns it. */
  function Make<S, P>(w: World<S, P>, n: Name, props: seq<Property<P>>): (r: (World<S, P>, Variable<P>))
    ensures r.1.name == Some(n)
    ensures forall key :: GetValue(r.1, key) == LastValue(props, key)
    ensures n in r.0.memory && r.0.memory[n] == r.1
    ensures forall m | m != n :: (m in r.0.memory <==> m in w.memory)
    ensures forall m | m != n && m in w.memory :: r.0.memory[m] == w.memory[m]
    ensures r.0 == w.(memory := r.0.memory)
  {
    var v := WithProperties(Some(n), props);
    (w.(memory := w.memory[n := v]), v)
  }

  /** `getStateTable`: a copy of the state table that reads like the table. */
  function GetStateTable<S, P>(w: World<S, P>): (snapshot: map<Name, Option<S>>)
    ensures forall n :: Get(snapshot, n) == Read(w, n)
  {
    w.states
  }

  // ---------------------------------------------------------------------
  // Transactional primitives

  /** `readT`: outside a transaction it throws and nothing changes; inside
      one it returns the live state, adds `n` to the current transaction's
      read-set unless `n` is in its write-set, and changes nothing else. */
  function ReadT<S, P>(w: World<S, P>, n: Name): (r: Result<(Option<S>, World<S, P>)>)
    requires Valid(w)
    ensures r.Err? <==> w.ts.current.None?
    ensures r.Err? ==> r.error == NoTransactionContext
    ensures r.Ok? ==> r.value.0 == Read(w, n) && Valid(r.value.1)
    ensures r.Ok? ==>
      var c := w.ts.current.value;
      var rec := w.txns[c].record;
      && |r.value.1.txns| == |w.txns|
      && r.value.1 == WithRecord(w, c, r.value.1.txns[c].record)
      && r.value.1.txns[c].record.readSet == (if n in rec.writeSet then rec.readSet else rec.readSet + {n})
      && r.value.1.txns[c].record == rec.(readSet := r.value.1.txns[c].record.readSet)
  {
    match w.ts.current
    case None => Err(NoTransactionContext)
    case Some(c) =>
      var rec := AddReadSetMembers(w.txns[c].record, [n]);
      Ok((Get(w.states, n), WithRecord(w, c, rec)))
  }

  /** `writeT`: outside a transaction it throws and nothing changes; inside
      one it adds `n` to the current transaction's write-set and stores `s`
      in the state table at once (there is no buffering). */
  function WriteT<S, P>(w: World<S, P>, n: Name, s: Option<S>): (r: Result<World<S, P>>)
    requires Valid(w)
    ensures r.Err? <==> w.ts.current.None?
    ensures r.Err? ==> r.error == NoTransactionContext
    ensures r.Ok? ==> Valid(r.value) && Read(r.value, n) == s && n in r.value.states
    ensures r.Ok? ==> r.value.states.Keys == w.states.Keys + {n}
    ensures r.Ok? ==> forall m | m in w.states && m != n :: r.value.states[m] == w.states[m]
    ensures r.Ok? ==>
      var c := w.ts.current.value;
      var rec := w.txns[c].record;
      && |r.value.txns| == |w.txns|
      && r.value == WithRecord(w, c, r.value.txns[c].record).(states := r.value.states)
      && r.value.txns[c].record.writeSet == rec.writeSet + {n}
      && r.value.txns[c].record == rec.(writeSet := r.value.txns[c].record.writeSet)
  {
    match w.ts.current
    case None => Err(NoTransactionContext)
    case Some(c) =>
      var rec := AddWriteSetMembers(w.txns[c].record, [n]);
      Ok(WithRecord(w, c, rec).(states := w.states[n := s]))
  }

  // ---------------------------------------------------------------------
  // Transaction builder

  /** `newTransaction`: allocates a transaction named `description` with no
      operations and a new record stamped with the version counter as it was
      before the call, raises the counter by one (as a Java `int`), and makes
      the new transaction the current one. The tables do not change. */
  function NewTransaction<S, P>(w: World<S, P>, description: string): (w': World<S, P>)
    ensures Valid(w')
    ensures |w'.txns| == |w.txns| + 1 && w'.txns[..|w.txns|] == w.txns
    ensures w'.ts.current == Some(|w.txns|)
    ensures w'.ts.version == if w.ts.version == MAX_VALUE then MIN_VALUE else w.ts.version + 1
    ensures var t := w'.txns[|w.txns|];
      && t.name == description && t.ops == []
      && !t.record.status && t.record.readSet == {} && t.record.writeSet == {}
      && t.record.version == Some(w.ts.version) && t.record.description == Some(description)
      && t.record.oldValues.None?
    ensures w'.states == w.states && w'.owners == w.owners && w'.memory == w.memory
  {
    var record := SetVersion(SetDescription(NewRecord(), description), w.ts.version);
    var ts := Transactions(Wrap(w.ts.version + 1), Some(|w.txns|));
    w.(txns := w.txns + [Txn(description, record, [])], ts := ts)
  }

  /** `op`: appends the operation to the end of the current transaction's
      list; with no current transaction it throws a null-pointer exception. */
  function AppendOp<S, P>(w: World<S, P>, op: Operation<S>): (r: Result<World<S, P>>)
    requires Valid(w)
    ensures r.Err? <==> w.ts.current.None?
    ensures r.Err? ==> r.error == NullPointer
    ensures r.Ok? ==>
      var c := w.ts.current.value;
      && Valid(r.value) && |r.value.txns| == |w.txns|
      && r.value.txns[c] == w.txns[c].(ops := w.txns[c].ops + [op])
      && (forall i | 0 <= i < |w.txns| && i != c :: r.value.txns[i] == w.txns[i])
      && r.value == w.(txns := r.value.txns)
  {
    match w.ts.current
    case None => Err(NullPointer)
    case Some(c) => Ok(w.(txns := w.txns[c := w.txns[c].(ops := w.txns[c].ops + [op])]))
  }

  /** `done`: the transaction being built, null when there is none; in a
      well-formed world it is an allocated one. */
  function Finish<S, P>(w: World<S, P>): (r: Option<TxnId>)
    ensures r.Some? <==> w.ts.current.Some?
    ensures Valid(w) && r.Some? ==> r.value < |w.txns|
  {
    w.ts.current
  }

  /** `op` applied to each operation in turn: the operations are appended,
      in order, to the current transaction and nothing else changes. */
  function AppendOps<S, P>(w: World<S, P>, ops: seq<Operation<S>>): (r: Result<World<S, P>>)
    requires Valid(w)
    ensures r.Err? <==> w.ts.current.None? && |ops| > 0
    ensures r.Ok? ==> Valid(r.value) && |r.value.txns| == |w.txns|
    ensures r.Ok? && w.ts.current.Some? ==>
      var c := w.ts.current.value;
      && r.value.txns[c] == w.txns[c].(ops := w.txns[c].ops + ops)
      && (forall i | 0 <= i < |w.txns| && i != c :: r.value.txns[i] == w.txns[i])
    ensures r.Ok? ==> r.value == w.(txns := r.value.txns)
  {
    if |ops| == 0 then
      assert forall c | 0 <= c < |w.txns| :: w.txns[c].ops + ops == w.txns[c].ops;
      Ok(w)
    else
      match AppendOps(w, ops[..|ops| - 1])
      case Err(e) => Err(e)
      case Ok(w1) =>
        assert forall c | 0 <= c < |w.txns| :: w.txns[c].ops + ops[..|ops| - 1] + [ops[|ops| - 1]] == w.txns[c].ops + ops;
        AppendOp(w1, ops[|ops| - 1])
  }

  /** `newTransaction(d).op(o1)...op(ok).done()` returns the transaction it
      just allocated, holding exactly the operations given, in order, and a
      fresh record; earlier transactions are untouched. */
  lemma BuildChain<S, P>(w: World<S, P>, description: string, ops: seq<Operation<S>>)
    ensures AppendOps(NewTransaction(w, description), ops).Ok?
    ensures var w' := AppendOps(NewTransaction(w, description), ops).value;
      && Valid(w')
      && Finish(w') == Some(|w.txns|)
      && |w'.txns| == |w.txns| + 1 && w'.txns[..|w.txns|] == w.txns
      && w'.txns[|w.txns|] == NewTransaction(w, description).txns[|w.txns|].(ops := ops)
      && w'.states == w.states && w'.owners == w.owners && w'.memory == w.memory
  {
    var w0, c := NewTransaction(w, description), |w.txns|;
    assert w0.ts.current == Some(c);
    var w' := AppendOps(w0, ops).value;
    assert w'.txns[c] == w0.txns[c].(ops := [] + ops);
    assert [] + ops == ops;
    forall i | 0 <= i < c
      ensures w'.txns[i] == w.txns[i]
    {
      assert w0.txns[i] == w0.txns[..c][i];
    }
    assert w'.txns[..c] == w.txns;
  }
}

=== FILE: variable.dfy ===
/** `foop.core.Variable`: the immutable identity of a memory cell, a name and
    a bag of properties fixed at construction. Equality and hashing look at
    the name only. */
module Variables {
  import opened Base
  import opened JavaInt

  /** `name` is None for a null name; a property mapped to None was supplied
      with a null value. */
  datatype Variable<P> = Variable(name: Option<string>, properties: map<string, Option<P>>)

  /** A property entry (`Map.Entry<String, Object>`) handed to the constructor. */
  type Property<P> = (string, Option<P>)

  /** `getValue`: the property's value, empty when the key is missing or its
      value is null. */
  function GetValue<P>(v: Variable<P>, key: string): (r: Option<P>)
    ensures r.Some? <==> key in v.properties && v.properties[key].Some?
    ensures r.Some? ==> r.value == v.properties[key].value
  {
    Get(v.properties, key)
  }

  /** The name-only constructor: no properties at all. */
  function Named<P>(name: Option<string>): (v: Variable<P>)
    ensures v.name == name
    ensures forall key :: GetValue(v, key) == None
  {
    Variable(name, map[])
  }

  /** Reference reading of a property list: the value of the LAST entry whose
      key is `key`, or None when no entry has that key. */
  function LastValue<P>(props: seq<Property<P>>, key: string): Option<P> {
    if |props| == 0 then None
    else if props[|props| - 1].0 == key then props[|props| - 1].1
    else LastValue(props[..|props| - 1], key)
  }

  /** `forEach(prop -> map.put(key, value))` over the entries, in order. */
  function PutAll<P>(m: map<string, Option<P>>, props: seq<Property<P>>): (r: map<string, Option<P>>)
    ensures forall key :: (exists i | 0 <= i < |props| :: props[i].0 == key) ==> Get(r, key) == LastValue(props, key)
    ensures forall key :: (forall i | 0 <= i < |props| :: props[i].0 != key) ==> Get(r, key) == Get(m, key)
  {
    if |props| == 0 then m
    else
      var last := props[|props| - 1];
      var r := PutAll(m, props[..|props| - 1])[last.0 := last.1];
      assert forall i | 0 <= i < |props| - 1 :: props[..|props| - 1][i] == props[i];
      r
  }

  /** The property constructor: later entries overwrite earlier ones. */
  function WithProperties<P>(name: Option<string>, props: seq<Property<P>>): (v: Variable<P>)
    ensures v.name == name
    ensures forall key :: GetValue(v, key) == LastValue(props, key)
  {
    var v := Variable(name, PutAll(map[], props));
    assert forall key :: (forall i | 0 <= i < |props| :: props[i].0 != key) ==> LastValue(props, key) == None by {
      forall key | forall i | 0 <= i < |props| :: props[i].0 != key
        ensures LastValue(props, key) == None
      {
        LastValueAbsent(props, key);
      }
    }
    v
  }

  lemma {:induction false} LastValueAbsent<P>(props: seq<Property<P>>, key: string)
    requires forall i | 0 <= i < |props| :: props[i].0 != key
    ensures LastValue(props, key) == None
  {
    if |props| > 0 {
      LastValueAbsent(props[..|props| - 1], key);
    }
  }

  /** Last-wins: the value of the entry at index `i` is the one `getValue`
      reports when no later entry has the same key. */
  lemma {:induction false} LastEntryWins<P>(name: Option<string>, props: seq<Property<P>>, i: nat)
    requires i < |props|
    requires forall j | i < j < |props| :: props[j].0 != props[i].0
    ensures GetValue(WithProperties(name, props), props[i].0) == props[i].1
  {
    LastValueAt(props, i);
  }

  lemma {:induction false} LastValueAt<P>(props: seq<Property<P>>, i: nat)
    requires i < |props|
    requires forall j | i < j < |props| :: props[j].0 != props[i].0
    ensures LastValue(props, props[i].0) == props[i].1
  {
    if i < |props| - 1 {
      LastValueAt(props[..|props| - 1], i);
    }
  }

  /** `getValue` is empty for a key no entry supplied, and for a key whose
      last entry carried a null value. */
  lemma GetValueEmpty<P>(name: Option<string>, props: seq<Property<P>>, key: string)
    requires (forall i | 0 <= i < |props| :: props[i].0 != key)
          || (exists i | 0 <= i < |props| :: props[i] == (key, None) && forall j | i < j < |props| :: props[j].0 != key)
    ensures GetValue(WithProperties(name, props), key) == None
  {
    if i :| 0 <= i < |props| && props[i] == (key, None) && forall j | i < j < |props| :: props[j].0 != key {
      LastEntryWins(name, props, i);
    } else {
      LastValueAbsent(props, key);
    }
  }

  /** A Java object an `equals` call can be handed. */
  datatype JavaObject<P> = NullRef | VariableRef(v: Variable<P>) | OtherRef

  /** `equals`: another Variable with the same name, two null names counting
      as the same; properties play no part. */
  function Equals<P>(v: Variable<P>, obj: JavaObject<P>): (r: bool)
    ensures r <==> obj.VariableRef? && obj.v.name == v.name
  {
    match obj
    case NullRef => false
    case OtherRef => false
    case VariableRef(other) =>
      if v.name.None? then other.name.None?
      else other.name.Some? && v.name.value == other.name.value
  }

  /** `equals` is an equivalence on Variables. */
  lemma EqualsIsEquivalence<P>(u: Variable<P>, v: Variable<P>, w: Variable<P>)
    ensures Equals(u, VariableRef(u))
    ensures Equals(u, VariableRef(v)) == Equals(v, VariableRef(u))
    ensures Equals(u, VariableRef(v)) && Equals(v, VariableRef(w)) ==> Equals(u, VariableRef(w))
  {
  }

  /** `String.hashCode` folded left to right with `int` arithmetic:
      h = 31 * h + c for each character c. */
  function StringHash(s: string): Int32 {
    if |s| == 0 then 0 else Wrap(31 * StringHash(s[..|s| - 1]) + s[|s| - 1] as int)
  }

  /** 31 to the power n. */
  function Pow31(n: nat): nat {
    if n == 0 then 1 else 31 * Pow31(n - 1)
  }

  /** The documented value of `String.hashCode` before narrowing, in Horner
      form: each character multiplies the value so far by 31. */
  function Polynomial(s: string): int {
    if |s| == 0 then 0 else 31 * Polynomial(s[..|s| - 1]) + s[|s| - 1] as int
  }

  /** The documented sum s[0]*31^(n-1) + s[1]*31^(n-2) + ... + s[n-1]. */
  function PowerSum(s: string): int {
    if |s| == 0 then 0 else s[0] as int * Pow31(|s| - 1) + PowerSum(s[1..])
  }

  /** `hashCode`: 31 * 1 plus the hash of the name (0 for a null name). */
  function HashCode<P>(v: Variable<P>): (h: Int32)
    ensures v.name.None? ==> h == 31
    ensures v.name.Some? ==> h == Wrap(31 + PowerSum(v.name.value))
  {
    if v.name.None? then Wrap(31 * 1 + 0)
    else
      StringHashIsPolynomial(v.name.value);
      PolynomialIsPowerSum(v.name.value);
      WrapCongruent(31 + StringHash(v.name.value), 31 + Polynomial(v.name.value));
      Wrap(31 * 1 + StringHash(v.name.value))
  }

  /** Wrapping after every step gives the documented polynomial narrowed once. */
  lemma {:induction false} StringHashIsPolynomial(s: string)
    ensures (StringHash(s) - Polynomial(s)) % MODULUS == 0
  {
    if |s| > 0 {
      var p := s[..|s| - 1];
      StringHashIsPolynomial(p);
      HashStep(StringHash(p), Polynomial(p), s[|s| - 1] as int, StringHash(s));
    }
  }

  /** The Horner form equals the documented power sum. */
  lemma {:induction false} PolynomialIsPowerSum(s: string)
    ensures Polynomial(s) == PowerSum(s)
  {
    if |s| > 0 {
      var p, c := s[..|s| - 1], s[|s| - 1];
      PolynomialIsPowerSum(p);
      PowerSumSnoc(p, c);
      assert p + [c] == s;
    }
  }

  lemma {:induction false} PowerSumSnoc(s: string, c: char)
    ensures PowerSum(s + [c]) == 31 * PowerSum(s) + c as int
  {
    if |s| == 0 {
      assert s + [c] == [c];
    } else {
      assert (s + [c])[1..] == s[1..] + [c];
      PowerSumSnoc(s[1..], c);
      assert Pow31(|s|) == 31 * Pow31(|s| - 1);
    }
  }

  /** Equal Variables have equal hash codes, whatever their properties. */
  lemma EqualsImpliesSameHash<P>(u: Variable<P>, v: Variable<P>)
    requires Equals(u, VariableRef(v))
    ensures HashCode(u) == HashCode(v)
  {
  }
}

=== FILE: world.dfy ===
/** The state the engine acts on, seen as one value: the three tables of the
    `StateManager`, the transaction objects allocated so far, and the ambient
    `Transactions` utility (version counter and current transaction). */
module Worlds {
  import opened Base
  import opened JavaInt
  import opened Variables
  import opened Records

  /** A transaction object's identity: its index in `World.txns`. */
  type TxnId = nat

  /** `StateManager.TAction`: what an operation reports. */
  datatype TAction = Done | Fail

  /** One step of an operation's body, in terms of the transactional
      primitives. `Modify` reads the cell and writes back `f` of what it read,
      as the bank deposit and withdrawal do; `Abort` returns FAIL. */
  datatype Instr<!S> =
    | Load(name: Name)
    | Store(name: Name, value: Option<S>)
    | Modify(name: Name, f: Option<S> -> Option<S>)
    | Abort

  /** `StateManager.TOperation`: a closure over the primitives. */
  type Operation<!S> = seq<Instr<S>>

  /** A `Transaction` object: its thread name, its record, its operations. */
  datatype Txn<!S> = Txn(name: string, record: Record<S>, ops: seq<Operation<S>>)

  /** `StateManager.Transactions`: the version counter (a Java `int`) and the
      transaction being built or run (None for null). */
  datatype Transactions = Transactions(version: Int32, current: Option<TxnId>)

  /** `states` is the state table (a None value is a null entry), `owners`
      the ownership table (`stm`), `memory` the Variables by name. */
  datatype World<!S, P> = World(
    states: map<Name, Option<S>>,
    owners: map<Name, TxnId>,
    memory: map<Name, Variable<P>>,
    txns: seq<Txn<S>>,
    ts: Transactions)

  /** The current transaction, if any, is an allocated one. */
  predicate Valid<S, P>(w: World<S, P>) {
    w.ts.current.Some? ==> w.ts.current.value < |w.txns|
  }

  /** Replaces the record of transaction `t`. */
  function WithRecord<S, P>(w: World<S, P>, t: TxnId, r: Record<S>): (w': World<S, P>)
    requires t < |w.txns|
    ensures |w'.txns| == |w.txns| && w'.txns[t].record == r
    ensures w'.txns[t] == w.txns[t].(record := r)
    ensures forall i | 0 <= i < |w.txns| && i != t :: w'.txns[i] == w.txns[i]
    ensures w' == w.(txns := w'.txns)
  {
    w.(txns := w.txns[t := w.txns[t].(record := r)])
  }
}
